=== FILE: README.md ===
# Memory Globe, modelled in Dafny

Memory Globe is a single-page travel journal. Each memory is a record with
an id, title, description, position, date, image and tags. The user clicks
the 3D globe to pick a position, fills in a form to create a memory, and
browses memories in a sidebar (recent list, tag list, search) or in a
gallery (search plus a toggleable tag filter). This project models the
program's logic as pure functions over immutable data:

- `MemoryStore` is the memories provider: append, replace by id, and
  delete by id. It loads once from key-value storage under
  `travelMemories` and saves after every change. JSON is an abstract
  `Codec` whose decoder may fail.
- `TagCatalog` is the "all unique tags" fold that the sidebar and the
  gallery share.
- `Sidebar` covers the five most recent memories, the case-insensitive
  search, the panel selection, and tag-click-to-search.
- `MemoryGallery` covers the search-and-tag filter, the tag toggle, and the
  three-tag card overflow.
- `AddMemoryForm` covers the default date, tag parsing, record construction,
  and the add-then-close submit sequence.
- `GlobeView` is the globe controller without the rendering engine. It
  models the marker layer, the click listeners registered on the WorldWindow,
  the terrain handler, the per-marker handlers, and the form's visibility.
- `GlobeUtils` is coordinate formatting.
- `App` is the active view, the detail modal's selection, and which
  components are rendered.
- `Session` wires everything together. It states an invariant that
  start-up and every later step keep, and walks through the end-to-end
  scenarios. This holds with the corrected engine start-up
  (`Session.EngineReady`). The start-up as written can reach a state that
  breaks the invariant (`Session.StartupMarkersMissing`, see Findings).
- `Text`, `Seqs`, `Wrappers` and `Types` hold the primitives.

Representation choices:

- Coordinates are integers in units of 1e-4 degree. With that choice,
  `toFixed(4)` is exact digit printing.
- `new Date(d).getTime()` is a parameter `dateKey: string -> int`.
- The clock's ISO timestamp and the id generator's output are parameters.
- The rendering engine's pick result is an input: the terrain position hit,
  if any, and the memory ids carried by the picked objects.
- `trim`, `toLowerCase` and `toUpperCase` are modelled on ASCII.

Behaviours of the code worth knowing:

- The store validates nothing: it accepts any title, any coordinates and
  duplicate ids. Only the form keeps an empty title out, through its
  `required` input and its disabled save button (`AddMemoryForm.SubmitDisabled`).
- `updateMemory` on an absent id silently changes nothing.
- A marker pick does not take precedence over a terrain pick: a click on a
  marker over terrain selects the memory and also opens the creation form.
- There is no rollback.
- An unparsable stored payload is logged to the console, and the
  collection stays empty. The next save then overwrites the payload.
- Rebuilding the markers never removes the per-marker click listeners.
  Listeners of replaced records keep firing (`Session.StaleListenerAfterUpdate`).
  No component calls `updateMemory` today, so only a caller of the
  provider's API can reach this.

## Model

| member | source | states |
|---|---|---|
| MemoryStore.AddMemory | src/hooks/useMemories.tsx:33-35 | Appends: one longer, every earlier record kept in place, the new record last; the count of the new id rises by exactly one, with no duplicate check |
| MemoryStore.AddDuplicateId | src/hooks/useMemories.tsx:33-35 | Adding a record whose id is already present leaves at least two records with that id |
| MemoryStore.UpdateMemory | src/hooks/useMemories.tsx:37-43 | Same length and same ids in the same order; every record carrying the id is replaced by the new record; every other record is unchanged |
| MemoryStore.UpdateAbsentIsNoop | src/hooks/useMemories.tsx:37-43 | Updating an id that is not present leaves the collection unchanged |
| MemoryStore.UpdateIdempotent | src/hooks/useMemories.tsx:37-43 | Updating twice with the same record equals updating once |
| MemoryStore.DeleteMemory | src/hooks/useMemories.tsx:45-49 | The id no longer occurs; a record is kept exactly when its id differs; the kept records are an order-preserving subsequence |
| MemoryStore.DeleteCount | src/hooks/useMemories.tsx:45-49 | The number of records removed equals the number that carried the id |
| MemoryStore.DeleteIdempotent | src/hooks/useMemories.tsx:45-49 | Deleting twice equals deleting once |
| MemoryStore.DeleteAbsentIsNoop | src/hooks/useMemories.tsx:45-49 | Deleting an id that is not present leaves the collection unchanged |
| MemoryStore.DeleteUndoesFreshAdd | src/hooks/useMemories.tsx:33-49 | Deleting the id of a record just added with a fresh id restores the previous collection |
| MemoryStore.Load | src/hooks/useMemories.tsx:14-26 | An absent key, an empty stored string or an undecodable payload leaves the initial empty collection; otherwise the decoded list |
| MemoryStore.LoadEffect | src/hooks/useMemories.tsx:17-26 | `setMemories` is called exactly when the key holds a non-empty string that decodes, and then with what `Load` yields |
| MemoryStore.Save | src/hooks/useMemories.tsx:28-31 | Afterwards the key holds the encoding of the collection; every other key is kept unchanged and no other key is added |
| MemoryStore.Mount | src/hooks/useMemories.tsx:14-31 | After mounting, the collection is what `Load` read and storage holds its encoding |
| MemoryStore.RemountIsStable | src/hooks/useMemories.tsx:14-31 | With a faithful codec, mounting again over what a mount wrote yields the same collection and the same storage |
| MemoryStore.Apply | src/hooks/useMemories.tsx:28-49 | An add appends, an update replaces by id, a delete removes by id (each as its own member states); afterwards the key holds the encoding of the new collection and every other key is kept |
| MemoryStore.ApplyAll | src/hooks/useMemories.tsx:28-49 | After any sequence of calls the collection is the replay of the mutators on the list alone, storage holds its encoding, and every other key is kept |
| MemoryStore.ApplyAllConcat | src/hooks/useMemories.tsx:28-49 | Running two batches of calls one after the other equals running their concatenation |
| MemoryStore.RestartRestores | src/hooks/useMemories.tsx:17-31 | With a faithful codec, a restart after any sequence of calls reads back exactly the collection, field for field and in order |
| MemoryStore.MountAsWritten | src/hooks/useMemories.tsx:14-31 | The mount as the two effects run it, including the first save of the initial empty list and, under strict effects, a second load and save; storage ends up mirroring the collection |
| MemoryStore.MountAsWrittenWithoutStrictEffects | src/hooks/useMemories.tsx:14-31 | Without strict effects the effects as written end exactly where `Mount` does |
| MemoryStore.StrictMountDropsStored | src/hooks/useMemories.tsx:17-31 | Under strict effects, and with a faithful codec, every mount ends with an empty collection and the encoding of the empty list in storage |
| MemoryStore.StrictMountLosesData | src/hooks/useMemories.tsx:17-31 | Under strict effects a stored non-empty collection is lost, while `Mount` restores it |
| Seqs.FilterMultiset | src/components/Sidebar.tsx:27-31 | A filter keeps every passing element exactly as often as it occurs and drops every failing one |
| TagCatalog.AllTags | src/components/Sidebar.tsx:17-24 | No duplicates; each tag of each memory is listed, and nothing else; tags appear in the order in which they first occur across the memories and their tags |
| TagCatalog.DedupKeepsOrder | src/components/Sidebar.tsx:17-24 | Folding "push if not included" from the empty list over a flat tag list gives its distinct values in order of first occurrence |
| TagCatalog.CollectIsPushAll | src/components/MemoryGallery.tsx:17-24 | The nested fold over memories and then their tags equals one fold over the flattened tag list |
| TagCatalog.PushIfNewKeepsOrder | src/components/Sidebar.tsx:19-21 | One push step keeps the list duplicate-free, complete and in first-seen order for the extended input |
| Sidebar.SortNewestFirst | src/components/Sidebar.tsx:12-13 | The sorted copy is a permutation of the collection with dates non-increasing |
| Sidebar.RecentMemories | src/components/Sidebar.tsx:12-14 | Length is min(5, n); dates are non-increasing; the list is a sub-multiset of the collection; no memory left out is newer than any memory shown |
| Sidebar.RecentIsPrefixOfSorted | src/components/Sidebar.tsx:12-14 | The recent list is a prefix of a newest-first permutation of the whole collection |
| Sidebar.RecentCardBadge | src/components/Sidebar.tsx:104-110 | No badge exactly for an untagged memory; otherwise the first tag, plus a count of the remaining tags exactly when there is more than one |
| Sidebar.FilteredMemories | src/components/Sidebar.tsx:27-31 | An order-preserving subsequence; a memory is included exactly when its title, its description or one of its tags contains the term, ignoring ASCII case; a matching record appears as often as in the collection |
| Sidebar.ShownPanel | src/components/Sidebar.tsx:73-139 | Search results exactly when the term is non-empty; otherwise the recent list or the tag list, following the active tab |
| Sidebar.ClickTag | src/components/Sidebar.tsx:129 | Clicking a tag makes it the search term and keeps the tab |
| Sidebar.ClickTagFindsCarriers | src/components/Sidebar.tsx:27-31 | After a non-empty tag is clicked, the search results are shown and include every memory carrying that tag |
| MemoryGallery.FilteredMemories | src/components/MemoryGallery.tsx:27-35 | An order-preserving subsequence; a memory is included exactly when it matches the search (empty term, or title or description contains it) and the tag (no active tag, or it carries it); a matching record appears as often as in the collection |
| MemoryGallery.NoFilterShowsAll | src/components/MemoryGallery.tsx:27-35 | With an empty search and no active tag, the whole collection is shown in order |
| MemoryGallery.SearchIgnoresTags | src/components/MemoryGallery.tsx:28-30 | Replacing a memory's tags never changes whether it matches the search |
| MemoryGallery.ClickAll | src/components/MemoryGallery.tsx:64 | "All" clears the active tag and keeps the search |
| MemoryGallery.ClickTag | src/components/MemoryGallery.tsx:76 | Clicking the active tag clears it; clicking any other tag selects that tag; the search is kept |
| MemoryGallery.ClickTwiceDeselects | src/components/MemoryGallery.tsx:76 | From no active tag, two clicks on the same tag return to the same state |
| MemoryGallery.TagBarSelectionNonEmpty | src/components/MemoryGallery.tsx:68-79 | With no search, selecting a tag offered by the tag bar never empties the gallery |
| MemoryGallery.StaleActiveTagShowsNothing | src/components/MemoryGallery.tsx:27-35 | An active tag that no memory carries any more makes the gallery show nothing, whatever the search |
| MemoryGallery.TagsOnCard | src/components/MemoryGallery.tsx:121-137 | A card shows the first min(3, n) tags, and a "+(n-3)" badge exactly when n > 3; shown plus badge count equals n |
| AddMemoryForm.InitialForm | src/components/AddMemoryForm.tsx:14-19 | The first-rendered form is dated with the default date, has no preview, and its save button starts disabled |
| AddMemoryForm.DefaultDate | src/components/AddMemoryForm.tsx:16 | The default date is the prefix of the ISO timestamp before its first 'T' (the whole text when there is none) |
| AddMemoryForm.ParseTags | src/components/AddMemoryForm.tsx:44 | The tags are the trimmed comma-separated pieces that are not empty: an order-preserving subsequence of the trimmed pieces, holding every non-empty one as often as it occurs; each is non-empty, comma-free and has no whitespace at either end |
| AddMemoryForm.ParseBlankTags | src/components/AddMemoryForm.tsx:44 | A tag string made only of commas and whitespace, including the empty string, parses to no tags |
| AddMemoryForm.ParseJoinedTags | src/components/AddMemoryForm.tsx:44 | Clean tags joined with commas parse back to the same list, in order and with duplicates kept |
| AddMemoryForm.ParseCommaSpace | src/components/AddMemoryForm.tsx:44 | Two clean tags written as "a, b" parse to [a, b] |
| AddMemoryForm.ParseSunSand | src/components/AddMemoryForm.tsx:44 | "sun, sand" parses to ["sun", "sand"] |
| AddMemoryForm.ParseDuplicateTags | src/components/AddMemoryForm.tsx:44 | "a,a" parses to ["a", "a"]: duplicates are kept |
| AddMemoryForm.BuildMemory | src/components/AddMemoryForm.tsx:36-45 | The record takes its position exactly from the picked position; its id, title, description and date from the inputs; its image from the preview, or "" without one; its tags from parsing |
| AddMemoryForm.ImageLoaded | src/components/AddMemoryForm.tsx:25-27 | A loaded file's data URL becomes the preview; every other field is kept |
| AddMemoryForm.ClearImage | src/components/AddMemoryForm.tsx:130 | Clearing removes the preview; every other field is kept |
| AddMemoryForm.ClearedImageIsEmpty | src/components/AddMemoryForm.tsx:43 | A record built after the preview is cleared has the empty image URL |
| AddMemoryForm.Submit | src/components/AddMemoryForm.tsx:32-50 | A disabled save (submitting, or empty title) makes no call; otherwise exactly one `addMemory` with the built record, then `onClose` |
| Session.CancelOnlyCloses | src/components/AddMemoryForm.tsx:155 | Cancelling has exactly the effect of closing: collection, storage and app state untouched, form hidden with its position forgotten, markers and listeners kept |
| GlobeView.GlyphOf | src/components/GlobeView.tsx:90 | Empty exactly for an empty title; otherwise one character, never a lower-case letter, equal to the title's first character up to case (the first code unit in the source; they differ only outside the Basic Multilingual Plane) |
| GlobeView.UpdateMarkers | src/components/GlobeView.tsx:66-128 | A no-op before the engine is ready; otherwise one marker per memory in collection order, at its position and tagged with its id, and one more listener per memory appended, none removed |
| GlobeView.MarkerIdsMatch | src/components/GlobeView.tsx:73-105 | After a rebuild the marker ids are exactly the collection's ids |
| GlobeView.Initialize | src/components/GlobeView.tsx:17-60 | When the engine loads and no handle exists yet: the globe becomes ready, earlier listeners are kept, the terrain listener is appended followed by one listener per memory, and the markers match the collection given to it; the form state is kept; otherwise nothing changes |
| GlobeView.HandleGlobeClick | src/components/GlobeView.tsx:164-183 | A terrain hit shows the form at the hit position; a miss changes nothing |
| GlobeView.MarkerSelections | src/components/GlobeView.tsx:108-120 | A marker listener selects its memory once per picked object carrying the memory's id, and nothing else |
| GlobeView.ClickEffects | src/components/GlobeView.tsx:108-183 | A memory is selected exactly when one of its listeners is registered and a picked object carries its id; independently a terrain hit opens the form at that position, and a click without one leaves the form as it was |
| GlobeView.HandleFormClose | src/components/GlobeView.tsx:185-188 | Closing hides the form and forgets the position |
| GlobeView.LastTerrainClickWins | src/components/GlobeView.tsx:175-182 | The click handler, given two terrain picks in a row, holds the second position with the form shown (a property of the handler; in the app the open form's overlay blocks the second click) |
| GlobeView.FormVisibility | src/components/GlobeView.tsx:185-197 | Closing hides the form; a terrain click on the ready globe with its terrain listener shows it again |
| GlobeUtils.LatitudeLetter | src/utils/globeUtils.ts:46 | 'N' exactly when the latitude is non-negative (zero is north), 'S' otherwise |
| GlobeUtils.LongitudeLetter | src/utils/globeUtils.ts:47 | 'E' exactly when the longitude is non-negative, 'W' otherwise |
| GlobeUtils.Magnitude | src/utils/globeUtils.ts:49-50 | The printed magnitude has only digits and a point, no sign, an integer part without leading zeros, and exactly four digits after the point |
| GlobeUtils.FormatThenParse | src/utils/globeUtils.ts:45-53 | The formatted text reads back to exactly the two signed coordinates: the layout "<abs>° <letter>, <abs>° <letter>" loses nothing |
| GlobeUtils.NegateLatitudeFlipsLetterOnly | src/utils/globeUtils.ts:46-52 | Negating a non-zero latitude changes exactly one character, its hemisphere letter |
| GlobeUtils.NegateLongitudeFlipsLetterOnly | src/utils/globeUtils.ts:47-52 | Negating a non-zero longitude changes exactly one character, its hemisphere letter |
| GlobeUtils.FriendlyLocationName | src/utils/globeUtils.ts:59-63 | The name starts with "Location at " and the rest reads back to exactly the given position |
| App.SelectMemory | src/App.tsx:19-22 | Selecting holds the memory and shows the modal; the view is kept |
| App.CloseMemoryDetail | src/App.tsx:14-17 | Closing hides the modal and forgets the memory; the view is kept |
| App.SetView | src/App.tsx:30-47 | A view button sets the active view and leaves the selection untouched |
| App.SelectAll | src/App.tsx:19-22 | Several selections from one click leave the last one held and the modal shown; none leaves the state unchanged |
| App.Rendered | src/App.tsx:53-62 | The globe view renders the globe and the sidebar; the gallery view renders the gallery alone |
| App.ReachableConsistent | src/App.tsx:66 | In every reachable state the modal is visible exactly when its flag is set; it is visible right after a select and hidden right after a close |
| Session.Start | src/hooks/useMemories.tsx:14-31 | Start-up establishes the invariant, with the collection that `Load` reads and an unmounted globe that first rendered with the empty collection |
| Session.EngineReady | src/components/GlobeView.tsx:17-60 | Engine start-up keeps the invariant, so on a ready globe the markers match the current collection |
| Session.EngineReadyAsWritten | src/components/GlobeView.tsx:17-60 | Engine start-up as written builds the markers from the collection of the instance's first render |
| Session.EngineReadyAgreesWhenUnchanged | src/components/GlobeView.tsx:17-64 | When the collection has not changed since the instance's first render, the start-up as written and the corrected one coincide |
| Session.StartupMarkersMissing | src/components/GlobeView.tsx:17-67 | For any stored non-empty collection, the start-up as written leaves a ready globe with no markers, breaking the invariant |
| Session.RemountShowsMarkers | src/components/GlobeView.tsx:17-60 | Returning from the gallery and loading the engine shows exactly the current collection's markers |
| Session.Change | src/components/GlobeView.tsx:62-64 | Each collection change (mutate, save, rebuild) keeps the invariant: storage mirrors the collection and a ready globe's markers match it |
| Session.ClickGlobe | src/components/GlobeView.tsx:108-120 | A click keeps the invariant and never changes the collection |
| Session.CloseForm | src/components/GlobeView.tsx:185-188 | Closing the form keeps the invariant, hides the form and forgets its position; collection, app state, markers and listeners are kept |
| Session.SubmitForm | src/components/AddMemoryForm.tsx:32-50 | Saving on the visible, enabled form appends exactly the built record, rebuilds the markers from the new collection and hides the form; otherwise nothing changes |
| Session.AddThenClose | src/components/AddMemoryForm.tsx:47-49 | The submit's two calls in order: the record is appended, the markers are rebuilt, the form is closed |
| Session.AppEvent | src/App.tsx:53-62 | App events keep the invariant; switching views unmounts the globe, and switching back mounts an instance that first renders with the current collection |
| Session.TerrainClickOpensForm | src/components/GlobeView.tsx:164-183 | A click on bare terrain opens the form at the clicked position and changes nothing else |
| Session.TerrainClickThenSubmit | src/components/AddMemoryForm.tsx:32-50 | A terrain click, then saving "Beach Day" with tags "sun, sand": exactly one record is appended at the end, at the clicked position, with the default date and tags ["sun", "sand"]; the last marker is its marker; the form is hidden |
| Session.MarkerOverTerrain | src/components/GlobeView.tsx:108-183 | A click on a marker over terrain shows a memory with the marker's id in the modal and also opens the creation form at the terrain position |
| Session.StaleListenerAfterUpdate | src/components/GlobeView.tsx:108-120 | After an update through the provider replaces a record, a click on its marker still selects the old record as well as the new one |

## Left out

- Rendering: the engine's layers, navigator, redraw and pick computation
  are left out, and so is the canvas glyph drawing. The pick result is an
  input and a glyph is its letter.
- Image loading: the `FileReader` that turns the chosen file into a data
  URL is left out. `ImageLoaded` takes the finished data URL.
- Id generation: `nanoid` is left out. The id is a parameter, and it is not
  assumed to be unique.
- Clock: `new Date().toISOString()` is left out. The ISO timestamp is a
  parameter.
- Date parsing: `new Date(d).getTime()` is the parameter `dateKey`, which
  is total. Invalid dates are left out. They give NaN and an inconsistent
  comparator in the source.
- `date-fns` display formatting and the two-decimal coordinates on cards
  are left out. Both are display only.
- `degreesToRadians`, `radiansToDegrees` and the Haversine
  `calculateDistance` are left out. They are floating-point trigonometry,
  and no component calls them.
- JSON encoding and decoding are abstract (`Codec`). A payload that parses
  but is not a list of memories is not modelled.
- Unicode: trimming, lower-casing and upper-casing are modelled on ASCII
  only.
- GlobeView.GlyphOf: `charAt(0)` yields the title's first UTF-16 code unit,
  while the model's strings are sequences of Unicode scalar values. For a
  title starting outside the Basic Multilingual Plane (an emoji, say) the
  source draws half a surrogate pair; the model's glyph is the whole first
  character. Titles inside that plane agree.
- Session accepts events that the running app cannot deliver. It accepts
  globe clicks while the creation form's overlay
  (src/components/GlobeView.tsx:197-198) covers the globe pane; the header
  and the sidebar stay clickable, so a view switch with the form open is
  real and discards the half-filled form (`Session.AppEvent`). It also
  accepts globe clicks and view switches while the detail modal
  (src/components/MemoryDetail.tsx:13) covers the whole screen. It also accepts
  `updateMemory` and `deleteMemory` calls, which only the provider's API
  offers: no component issues them. The invariants are proved for this
  larger set of event sequences, so they hold for the real ones too. The
  scenarios that use these events (`GlobeView.LastTerrainClickWins`,
  `Session.StaleListenerAfterUpdate`) describe the handlers and the
  provider, not clicks a user can make.
- React scheduling: the asynchronous engine import, effect ordering and
  re-render timing are left out. The model takes a collection change's
  outcomes in the order mutate, save, rebuild markers. React starts the
  globe's `[memories]` effect (src/components/GlobeView.tsx:62-64) before
  the provider's save effect, but the rebuild itself completes only after
  the awaited engine import.
- MemoryStore.Save: storage never fails in the model. In the source,
  `localStorage.setItem` at src/hooks/useMemories.tsx:30 throws when the
  quota is exceeded, and nothing catches it. Every record carries its whole
  image as a data URL, so a few photos can exceed the quota. An uncaught
  throw in an effect takes the component tree down. Modelling that needs a
  failing storage and React's error handling, both outside this model.
- MemoryStore.Load: `localStorage.getItem` at src/hooks/useMemories.tsx:18
  also throws when storage is disabled, and that throw is left out in the
  same way. Only a payload that fails to parse is modelled as a failure.
- MemoryStore.RestartRestores: holds only because `Save` always succeeds.
  After a failed write, storage would keep the previous payload, and a
  restart would read that payload instead.
- Other collaborators: the provider guard in `useMemories` (a throw outside
  the provider) is left out, along with the detail modal's rendering and
  the type declarations for an unused globe library.
- GlobeUtils.Magnitude: does not model `toFixed`'s exponential notation for
  magnitudes of 1e21 or more. Nor does it model binary floating-point
  rounding or negative zero, which prints as north or east with zero
  digits in the source, as zero does here.
- Sidebar.RecentMemories: does not state that equal dates keep collection
  order (the sort is stable in the source and in the model). It states only
  the ordering, the length, the sub-multiset relation and that nothing
  left out is newer.
- GlobeView.ClickEffects: states which memories are selected, not how many
  times. `GlobeView.MarkerSelections` gives the count for one listener.
- Session.MarkerOverTerrain: states that the memory held afterwards carries
  the marker's id, not which record it is. Listeners of earlier records
  with that id may be called too.

## Findings

| source | as written | input that shows it | evidently intended | confidence | as-written member | corrected member |
|---|---|---|---|---|---|---|
| src/components/GlobeView.tsx:45 | The engine start-up calls the `updateMarkers` of the first render, which iterates that render's collection, the initial empty list | Any stored non-empty collection. The provider's load re-render runs while the engine module is still loading, and that render's rebuild is skipped because no handle exists | Markers for the collection current when the engine becomes ready | medium, not executed | Session.EngineReadyAsWritten, Session.StartupMarkersMissing | Session.EngineReady |
| src/hooks/useMemories.tsx:17-31 | The collection starts empty and is filled by a load effect, while a save effect writes the current collection | Any stored non-empty collection, mounted with the strict effects that `src/main.tsx` enables in development. The first save writes the empty list, and the second load reads it back | The stored collection survives a reload | medium, not executed | MemoryStore.MountAsWritten, MemoryStore.StrictMountLosesData | MemoryStore.Mount |

=== FILE: add_memory_form.dfy ===
/** The creation form shown after a terrain click: its fields, the default
    date, comma-separated tag parsing, record construction, and the
    submit sequence (add the record, then close). */
module AddMemoryForm {
  import opened Wrappers
  import opened Seqs
  import opened Text
  import opened Types

  /** The form's state. `imagePreview` is the data URL read from the chosen
      file, or null. */
  datatype Form = Form(
    title: string,
    description: string,
    date: string,
    tags: string,
    imagePreview: Option<string>,
    isSubmitting: bool)

  /** `new Date().toISOString().split('T')[0]`, with the clock's ISO
      timestamp passed in: the text before the first 'T'. */
  function DefaultDate(isoNow: string): (r: string)
    ensures |r| <= |isoNow| && r == isoNow[..|r|]
    ensures 'T' !in r
    ensures |r| < |isoNow| ==> isoNow[|r|] == 'T'
  {
    FirstPiece(isoNow, 'T');
    Split(isoNow, 'T')[0]
  }

  /** The form as first rendered: dated today, with nothing typed, so its
      save button starts disabled. */
  function InitialForm(isoNow: string): (r: Form)
    ensures r.date == DefaultDate(isoNow) && r.imagePreview.None?
    ensures SubmitDisabled(r)
  {
    Form("", "", DefaultDate(isoNow), "", None, false)
  }

  /** A parsed tag: non-empty, comma-free, no whitespace at either end. */
  predicate IsCleanTag(t: string)
  {
    |t| > 0 && ',' !in t && !IsSpace(t[0]) && !IsSpace(t[|t| - 1])
  }

  /** A character missing from a string is missing from any framed infix. */
  lemma FramedAvoids(s: string, r: string, lead: nat, x: char)
    requires Framed(s, r, lead) && x !in s
    ensures x !in r
  {
    forall i | 0 <= i < |r|
      ensures r[i] != x
    {
      assert r[i] == s[lead + i];
    }
  }

  /** Trimming a comma-free piece leaves it empty or a clean tag. */
  lemma TrimPiece(piece: string)
    requires ',' !in piece
    ensures Trim(piece) == "" || IsCleanTag(Trim(piece))
  {
    var t := Trim(piece);
    FramedAvoids(piece, t, |piece| - |TrimStart(piece)|, ',');
  }

  function TrimAll(pieces: seq<string>): (r: seq<string>)
    ensures |r| == |pieces|
    ensures forall i :: 0 <= i < |r| ==> r[i] == Trim(pieces[i])
  {
    seq(|pieces|, i requires 0 <= i < |pieces| => Trim(pieces[i]))
  }

  /** `tags.split(',').map(tag => tag.trim()).filter(tag => tag)`: the
      trimmed comma-separated pieces that are not empty, in input order and
      with repeats kept; each one is a clean tag. */
  function ParseTags(s: string): (r: seq<string>)
    ensures forall t :: t in r ==> IsCleanTag(t)
    ensures |r| <= |Split(s, ',')|
    ensures IsSubseq(r, TrimAll(Split(s, ',')))
    ensures forall p :: p in Split(s, ',') && Trim(p) != "" ==> Trim(p) in r
    ensures forall t :: t in TrimAll(Split(s, ',')) && t != "" ==>
      multiset(r)[t] == multiset(TrimAll(Split(s, ',')))[t]
  {
    var pieces := Split(s, ',');
    TrimmedPiecesClean(pieces);
    TrimmedPiecesPresent(pieces);
    FilterMultiset((t: string) => t != "", TrimAll(pieces));
    Filter((t: string) => t != "", TrimAll(pieces))
  }

  /** Trimmed comma-free pieces are empty or clean tags. */
  lemma TrimmedPiecesClean(pieces: seq<string>)
    requires forall i :: 0 <= i < |pieces| ==> ',' !in pieces[i]
    ensures forall t :: t in TrimAll(pieces) && t != "" ==> IsCleanTag(t)
  {
    var trimmed := TrimAll(pieces);
    forall t | t in trimmed && t != ""
      ensures IsCleanTag(t)
    {
      var i :| 0 <= i < |trimmed| && trimmed[i] == t;
      TrimPiece(pieces[i]);
    }
  }

  /** Every piece's trimmed form is among the trimmed pieces. */
  lemma TrimmedPiecesPresent(pieces: seq<string>)
    ensures forall p :: p in pieces ==> Trim(p) in TrimAll(pieces)
  {
    var trimmed := TrimAll(pieces);
    forall p | p in pieces
      ensures Trim(p) in trimmed
    {
      var i :| 0 <= i < |pieces| && pieces[i] == p;
      assert trimmed[i] == Trim(p);
    }
  }

  /** Trimming whitespace-only text leaves nothing. */
  lemma TrimAllSpace(piece: string)
    requires AllSpace(piece)
    ensures Trim(piece) == ""
  {
  }

  /** A string of nothing but commas and whitespace parses to no tags. */
  lemma ParseBlankTags(s: string)
    requires forall i :: 0 <= i < |s| ==> s[i] == ',' || IsSpace(s[i])
    ensures ParseTags(s) == []
  {
    var pieces := Split(s, ',');
    var trimmed := TrimAll(pieces);
    forall i | 0 <= i < |pieces|
      ensures trimmed[i] == ""
    {
      forall j | 0 <= j < |pieces[i]|
        ensures IsSpace(pieces[i][j])
      {
        PieceChars(s, i, pieces[i][j]);
      }
      TrimAllSpace(pieces[i]);
    }
    FilterNonePass((t: string) => t != "", trimmed);
  }

  /** Characters of a split piece come from the split string. */
  lemma PieceChars(s: string, i: nat, c: char)
    requires i < |Split(s, ',')|
    ensures c in Split(s, ',')[i] ==> c in s
    decreases |s|
  {
    if ',' in s && c in Split(s, ',')[i] {
      var k := IndexOf(s, ',');
      assert s == s[..k] + [','] + s[k + 1..];
      if i > 0 {
        PieceChars(s[k + 1..], i - 1, c);
      }
    }
  }

  lemma TrimClean(t: string)
    requires IsCleanTag(t)
    ensures Trim(t) == t
  {
    assert TrimStart(t) == t;
    assert TrimEnd(t) == t;
  }

  /** Parsing keeps order and duplicates: clean tags joined with commas
      parse back to exactly the same list. */
  lemma ParseJoinedTags(tags: seq<string>)
    requires |tags| >= 1
    requires forall i :: 0 <= i < |tags| ==> IsCleanTag(tags[i])
    ensures ParseTags(Join(tags, ',')) == tags
  {
    SplitJoin(tags, ',');
    var trimmed := TrimAll(tags);
    forall i | 0 <= i < |tags|
      ensures trimmed[i] == tags[i]
    {
      TrimClean(tags[i]);
    }
    assert trimmed == tags;
    assert forall t :: t in tags ==> t != "";
    FilterAllPass((t: string) => t != "", tags);
  }

  /** Parsing comma-joined pieces trims each piece and drops the empty ones. */
  lemma ParseJoinedPieces(pieces: seq<string>)
    requires |pieces| >= 1
    requires forall i :: 0 <= i < |pieces| ==> ',' !in pieces[i]
    ensures ParseTags(Join(pieces, ',')) == Filter((t: string) => t != "", TrimAll(pieces))
  {
    SplitJoin(pieces, ',');
  }

  lemma TrimAllPair(pieces: seq<string>, a: string, b: string)
    requires |pieces| == 2 && Trim(pieces[0]) == a && Trim(pieces[1]) == b
    ensures TrimAll(pieces) == [a, b]
  {
    var r := TrimAll(pieces);
    assert r[0] == a && r[1] == b;
  }

  lemma TrimLeadingSpace(t: string)
    requires IsCleanTag(t)
    ensures Trim([' '] + t) == t
  {
    var s := [' '] + t;
    assert s[1..] == t;
    assert TrimStart(t) == t;
    assert TrimStart(s) == t;
    assert TrimEnd(t) == t;
  }

  lemma KeepNonEmptyPair(a: string, b: string)
    requires a != "" && b != ""
    ensures Filter((t: string) => t != "", [a, b]) == [a, b]
  {
    FilterAllPass((t: string) => t != "", [a, b]);
  }

  /** A user typing "a, b" gets [a, b]: the space after the comma is
      trimmed (so "sun, sand" gives ["sun", "sand"]). */
  lemma ParseCommaSpace(a: string, b: string)
    requires IsCleanTag(a) && IsCleanTag(b)
    ensures ParseTags(a + ", " + b) == [a, b]
  {
    var pieces := [a, [' '] + b];
    assert Join(pieces, ',') == a + ", " + b;
    ParseJoinedPieces(pieces);
    TrimClean(a);
    TrimLeadingSpace(b);
    TrimAllPair(pieces, a, b);
    KeepNonEmptyPair(a, b);
  }

  /** "sun, sand" gives ["sun", "sand"]. */
  lemma ParseSunSand()
    ensures ParseTags("sun, sand") == ["sun", "sand"]
  {
    assert IsCleanTag("sun") && IsCleanTag("sand");
    assert "sun" + ", " + "sand" == "sun, sand";
    ParseCommaSpace("sun", "sand");
  }

  /** "a,a" gives ["a", "a"]: duplicates are kept. */
  lemma ParseDuplicateTags()
    ensures ParseTags("a,a") == ["a", "a"]
  {
    assert Join(["a", "a"], ',') == "a,a";
    ParseJoinedTags(["a", "a"]);
  }

  /** `handleSubmit`'s record: the picked position, the form fields, the
      parsed tags, and the preview or "" as the image. */
  function BuildMemory(id: string, position: Position, f: Form): (m: Memory)
    ensures m.latitude == position.latitude && m.longitude == position.longitude
    ensures m.imageUrl == f.imagePreview.GetOr("")
    ensures m.id == id && m.title == f.title && m.description == f.description && m.date == f.date
    ensures m.tags == ParseTags(f.tags)
  {
    Memory(id, f.title, f.description, position.latitude, position.longitude,
           f.date, f.imagePreview.GetOr(""), ParseTags(f.tags))
  }

  /** The file reader finished: its data URL becomes the preview. */
  function ImageLoaded(f: Form, dataUrl: string): (r: Form)
    ensures r.imagePreview == Some(dataUrl)
    ensures r.title == f.title && r.description == f.description && r.date == f.date
    ensures r.tags == f.tags && r.isSubmitting == f.isSubmitting
  {
    f.(imagePreview := Some(dataUrl))
  }

  /** The preview's remove button. */
  function ClearImage(f: Form): (r: Form)
    ensures r.imagePreview.None?
    ensures r.title == f.title && r.description == f.description && r.date == f.date
    ensures r.tags == f.tags && r.isSubmitting == f.isSubmitting
  {
    f.(imagePreview := None)
  }

  /** A cleared preview yields an empty image reference, whatever was
      loaded before. */
  lemma ClearedImageIsEmpty(id: string, position: Position, f: Form, dataUrl: string)
    ensures BuildMemory(id, position, ClearImage(ImageLoaded(f, dataUrl))).imageUrl == ""
    ensures BuildMemory(id, position, ImageLoaded(f, dataUrl)).imageUrl == dataUrl
  {
  }

  /** The save button is disabled while submitting or while the title is
      empty (the title input is also `required`). */
  predicate SubmitDisabled(f: Form)
  {
    f.isSubmitting || f.title == ""
  }

  /** Calls the form makes on its collaborators. */
  datatype Effect = AddMemoryCall(memory: Memory) | CloseCall

  /** Pressing save: nothing when disabled; otherwise one `addMemory` with
      the built record, then `onClose`. The submitting flag is raised and
      lowered within the handler, so it ends as it began. */
  function Submit(f: Form, position: Position, id: string): (r: (Form, seq<Effect>))
    ensures r.0 == f
    ensures SubmitDisabled(f) <==> r.1 == []
    ensures !SubmitDisabled(f) ==>
      r.1 == [AddMemoryCall(BuildMemory(id, position, f)), CloseCall]
  {
    if SubmitDisabled(f) then (f, [])
    else (f.(isSubmitting := false), [AddMemoryCall(BuildMemory(id, position, f)), CloseCall])
  }

  /** The cancel and close buttons only call `onClose`. */
  function Cancel(f: Form): seq<Effect>
  {
    [CloseCall]
  }
}

=== FILE: app.dfy ===
/** The top-level view state: which view is active, and the memory detail
    modal's selection. */
module App {
  import opened Wrappers
  import opened Types

  datatype View = GlobeTab | GalleryTab

  /** The components rendered for a view. */
  datatype Component = GlobePane | SidebarPane | GalleryPane

  datatype AppState = AppState(activeView: View, selectedMemory: Option<Memory>, showMemoryDetail: bool)

  const Initial: AppState := AppState(GlobeTab, None, false)

  /** `handleMemorySelect`. */
  function SelectMemory(s: AppState, m: Memory): (r: AppState)
    ensures r.selectedMemory == Some(m) && r.showMemoryDetail
    ensures r.activeView == s.activeView
  {
    s.(selectedMemory := Some(m), showMemoryDetail := true)
  }

  /** `handleCloseMemoryDetail`. */
  function CloseMemoryDetail(s: AppState): (r: AppState)
    ensures r.selectedMemory.None? && !r.showMemoryDetail
    ensures r.activeView == s.activeView
  {
    s.(selectedMemory := None, showMemoryDetail := false)
  }

  /** The header's Globe and Gallery buttons. */
  function SetView(s: AppState, v: View): (r: AppState)
    ensures r.activeView == v
    ensures r.selectedMemory == s.selectedMemory && r.showMemoryDetail == s.showMemoryDetail
  {
    s.(activeView := v)
  }

  /** Several `onMemorySelect` calls from one click, applied in order. */
  function SelectAll(s: AppState, ms: seq<Memory>): (r: AppState)
    ensures |ms| == 0 ==> r == s
    ensures |ms| > 0 ==> r.selectedMemory == Some(ms[|ms| - 1]) && r.showMemoryDetail
    ensures r.activeView == s.activeView
    decreases |ms|
  {
    if |ms| == 0 then s else SelectAll(SelectMemory(s, ms[0]), ms[1..])
  }

  /** The modal renders when shown and a memory is held. */
  predicate DetailVisible(s: AppState)
  {
    s.showMemoryDetail && s.selectedMemory.Some?
  }

  /** The main area: the globe with the sidebar, or the gallery. */
  function Rendered(v: View): (r: seq<Component>)
    ensures SidebarPane in r <==> v == GlobeTab
    ensures GlobePane in r <==> v == GlobeTab
    ensures GalleryPane in r <==> v == GalleryTab
  {
    match v
    case GlobeTab => [GlobePane, SidebarPane]
    case GalleryTab => [GalleryPane]
  }

  /** An event on the app's own state. */
  datatype Event = Select(memory: Memory) | CloseDetail | ShowView(view: View)

  function Step(s: AppState, e: Event): AppState
  {
    match e
    case Select(m) => SelectMemory(s, m)
    case CloseDetail => CloseMemoryDetail(s)
    case ShowView(v) => SetView(s, v)
  }

  /** The flag and the selection move together. */
  predicate Consistent(s: AppState)
  {
    s.showMemoryDetail <==> s.selectedMemory.Some?
  }

  /** From the initial state, in every reachable state the modal is visible
      exactly when the flag is set; it is visible right after a select and
      hidden right after a close. */
  lemma {:induction false} ReachableConsistent(events: seq<Event>)
    ensures var s := StepAll(Initial, events);
      Consistent(s) && (DetailVisible(s) <==> s.showMemoryDetail)
    ensures |events| > 0 && events[|events| - 1].Select? ==> DetailVisible(StepAll(Initial, events))
    ensures |events| > 0 && events[|events| - 1].CloseDetail? ==> !DetailVisible(StepAll(Initial, events))
  {
    StepAllConsistent(Initial, events);
    if |events| > 0 {
      StepAllLast(Initial, events);
    }
  }

  function StepAll(s: AppState, events: seq<Event>): AppState
    decreases |events|
  {
    if |events| == 0 then s else StepAll(Step(s, events[0]), events[1..])
  }

  lemma {:induction false} StepAllConsistent(s: AppState, events: seq<Event>)
    requires Consistent(s)
    ensures Consistent(StepAll(s, events))
    decreases |events|
  {
    if |events| > 0 {
      StepAllConsistent(Step(s, events[0]), events[1..]);
    }
  }

  lemma {:induction false} StepAllLast(s: AppState, events: seq<Event>)
    requires |events| > 0
    ensures StepAll(s, events) == Step(StepAll(s, events[..|events| - 1]), events[|events| - 1])
    decreases |events|
  {
    if |events| > 1 {
      StepAllLast(Step(s, events[0]), events[1..]);
      assert events[1..][..|events| - 2] == events[..|events| - 1][1..];
    }
  }
}

=== FILE: globe_utils.dfy ===
/** Coordinate formatting for display. Coordinates are fixed-point
    (one unit is 1e-4 degree), so `Math.abs(v).toFixed(4)` is exact digit
    printing: the integer part, a point, and four fractional digits. */
module GlobeUtils {
  import opened Wrappers
  import opened Text

  const DegreeSign: char := '\U{00B0}'

  function Abs(v: int): nat
  {
    if v < 0 then -v else v
  }

  /** `latitude >= 0 ? 'N' : 'S'`: zero is north. */
  function LatitudeLetter(lat: int): (c: char)
    ensures c == 'N' <==> lat >= 0
    ensures c == 'S' <==> lat < 0
  {
    if lat >= 0 then 'N' else 'S'
  }

  /** `longitude >= 0 ? 'E' : 'W'`: zero is east. */
  function LongitudeLetter(lon: int): (c: char)
    ensures c == 'E' <==> lon >= 0
    ensures c == 'W' <==> lon < 0
  {
    if lon >= 0 then 'E' else 'W'
  }

  /** `a.toFixed(4)` for `a` in units of 1e-4: no sign, an integer part
      without leading zeros, a point, and exactly four digits after it. */
  function Magnitude(a: nat): (r: string)
    ensures forall i :: 0 <= i < |r| ==> IsDigit(r[i]) || r[i] == '.'
    ensures |r| >= 6 && r[|r| - 5] == '.' && AllDigits(r[|r| - 4..])
    ensures r[0] != '0' || r[1] == '.'
  {
    var ip := NatToString(a / 10000);
    var r := ip + "." + Frac4(a % 10000);
    assert r[|r| - 4..] == Frac4(a % 10000);
    assert r[0] == ip[0] && r[|ip|] == '.';
    r
  }

  /** `"<abs>° <letter>"`. */
  function Part(v: int, letter: char): string
  {
    Magnitude(Abs(v)) + [DegreeSign, ' ', letter]
  }

  function LatitudePart(lat: int): string
  {
    Part(lat, LatitudeLetter(lat))
  }

  function LongitudePart(lon: int): string
  {
    Part(lon, LongitudeLetter(lon))
  }

  /** `formatCoordinates`: the latitude part, a comma and a space, and the
      longitude part. */
  function FormatCoordinates(lat: int, lon: int): string
  {
    LatitudePart(lat) + ", " + LongitudePart(lon)
  }

  /** `getFriendlyLocationName`: a fixed prefix before the formatted
      coordinates, which still read back as the exact position. */
  function FriendlyLocationName(lat: int, lon: int): (r: string)
    ensures |r| > 12 && r[..12] == "Location at "
    ensures ParseCoordinates(r[12..]) == Some((lat, lon))
  {
    var r := "Location at " + FormatCoordinates(lat, lon);
    assert r[12..] == FormatCoordinates(lat, lon);
    FormatThenParse(lat, lon);
    r
  }

  // ---------------------------------------------------------------------
  // Reading the text back
  // ---------------------------------------------------------------------

  /** Reads `"<digits>.<4 digits>"` back into units of 1e-4. */
  function ParseMagnitude(s: string): Option<nat>
  {
    if '.' !in s then None
    else
      var k := IndexOf(s, '.');
      var ip := s[..k];
      var fp := s[k + 1..];
      if |ip| >= 1 && AllDigits(ip) && |fp| == 4 && AllDigits(fp) then
        Some(ParseDigits(ip) * 10000 + ParseDigits(fp))
      else None
  }

  /** Reads `"<abs>° <letter>"` back into a signed value. */
  function ParsePart(s: string, pos: char, neg: char): Option<int>
  {
    if |s| < 3 || s[|s| - 3] != DegreeSign || s[|s| - 2] != ' ' then None
    else
      match ParseMagnitude(s[..|s| - 3])
      case None => None
      case Some(a) =>
        var v: int := a;
        if s[|s| - 1] == pos then Some(v)
        else if s[|s| - 1] == neg then Some(-v)
        else None
  }

  /** Reads a formatted coordinate pair back. */
  function ParseCoordinates(s: string): Option<(int, int)>
  {
    if ',' !in s then None
    else
      var k := IndexOf(s, ',');
      if k + 1 < |s| && s[k + 1] == ' ' then
        match (ParsePart(s[..k], 'N', 'S'), ParsePart(s[k + 2..], 'E', 'W'))
        case (Some(lat), Some(lon)) => Some((lat, lon))
        case _ => None
      else None
  }

  lemma ParseMagnitudeOf(a: nat)
    ensures ParseMagnitude(Magnitude(a)) == Some(a)
  {
    var ip := NatToString(a / 10000);
    var s := Magnitude(a);
    assert s[..|ip|] == ip && s[|ip|] == '.';
    IndexOfAt(s, '.', |ip|);
    assert s[|ip| + 1..] == Frac4(a % 10000);
    ParseNatToString(a / 10000);
  }

  lemma ParsePartOf(v: int, pos: char, neg: char)
    requires pos != neg
    ensures ParsePart(Part(v, if v >= 0 then pos else neg), pos, neg) == Some(v)
  {
    var s := Part(v, if v >= 0 then pos else neg);
    assert s[..|s| - 3] == Magnitude(Abs(v));
    ParseMagnitudeOf(Abs(v));
  }

  /** The formatted text determines both coordinates exactly: digits and
      hemisphere letters together encode the signed values. */
  lemma FormatThenParse(lat: int, lon: int)
    ensures ParseCoordinates(FormatCoordinates(lat, lon)) == Some((lat, lon))
  {
    var lp := LatitudePart(lat);
    var s := FormatCoordinates(lat, lon);
    assert s[..|lp|] == lp && s[|lp|] == ',' && s[|lp| + 1] == ' ';
    assert ',' !in lp by {
      var mag := Magnitude(Abs(lat));
      assert lp == mag + [DegreeSign, ' ', LatitudeLetter(lat)];
      assert forall i :: 0 <= i < |lp| ==> IsDigit(lp[i]) || lp[i] == '.' || i >= |mag|;
    }
    IndexOfAt(s, ',', |lp|);
    assert s[|lp| + 2..] == LongitudePart(lon);
    ParsePartOf(lat, 'N', 'S');
    ParsePartOf(lon, 'E', 'W');
  }

  /** Negating the latitude flips its hemisphere letter and nothing else. */
  lemma NegateLatitudeFlipsLetterOnly(lat: int, lon: int)
    requires lat != 0
    ensures var s := FormatCoordinates(lat, lon);
      var i := |LatitudePart(lat)| - 1;
      FormatCoordinates(-lat, lon) == s[i := if s[i] == 'N' then 'S' else 'N']
  {
    var s := FormatCoordinates(lat, lon);
    var i := |LatitudePart(lat)| - 1;
    assert Abs(-lat) == Abs(lat);
    assert s[i] == LatitudeLetter(lat);
  }

  /** Negating the longitude flips its hemisphere letter and nothing else. */
  lemma NegateLongitudeFlipsLetterOnly(lat: int, lon: int)
    requires lon != 0
    ensures var s := FormatCoordinates(lat, lon);
      var i := |s| - 1;
      FormatCoordinates(lat, -lon) == s[i := if s[i] == 'E' then 'W' else 'E']
  {
    assert Abs(-lon) == Abs(lon);
  }
}

=== FILE: globe_view.dfy ===
/** The globe controller without the rendering engine: the engine handle
    (ready or not), the marker layer, the click listeners registered on the
    WorldWindow, and the creation form's visibility and picked position. A pick
    is an input: the terrain position hit, if any, and the memory ids found
    on the picked objects (None for an object without one). */
module GlobeView {
  import opened Wrappers
  import opened Text
  import opened Types

  /** A placemark: the memory it stands for, where, and its glyph letter. */
  datatype Marker = Marker(memoryId: string, latitude: int, longitude: int, glyph: string)

  /** A click listener on the WorldWindow: the terrain handler registered at
      start-up, or a per-marker handler closed over one memory record. */
  datatype Listener = TerrainHandler | MarkerHandler(memory: Memory)

  datatype PickResult = PickResult(terrain: Option<Position>, objects: seq<Option<string>>)

  datatype Globe = Globe(
    ready: bool,
    markers: seq<Marker>,
    listeners: seq<Listener>,
    showAddForm: bool,
    selectedPosition: Option<Position>)

  /** Before the engine handle exists: no markers, no listeners, no form. */
  const Unmounted: Globe := Globe(false, [], [], false, None)

  /** `title.charAt(0).toUpperCase()`: empty exactly for an empty title;
      otherwise one character, not a lower-case letter, that is the title's
      first character up to case. `charAt` takes a UTF-16 code unit, which
      is the first character only for titles starting inside the Basic
      Multilingual Plane. */
  function GlyphOf(title: string): (r: string)
    ensures |title| == 0 <==> r == ""
    ensures |title| > 0 ==> |r| == 1 && !('a' <= r[0] <= 'z') && LowerChar(r[0]) == LowerChar(title[0])
  {
    if |title| == 0 then "" else [UpperChar(title[0])]
  }

  function MarkerFor(m: Memory): Marker
  {
    Marker(m.id, m.latitude, m.longitude, GlyphOf(m.title))
  }

  /** The marker layer shows exactly the collection: one placemark per
      memory, in collection order, at its position and tagged with its id. */
  predicate MarkersMatch(markers: seq<Marker>, ms: seq<Memory>)
  {
    |markers| == |ms| &&
    forall i :: 0 <= i < |ms| ==> markers[i] == MarkerFor(ms[i])
  }

  /** `updateMarkers`: nothing before the engine is ready; otherwise the
      layer is cleared and refilled from the collection, and one more click
      listener per memory is added. Listeners are never removed. */
  function UpdateMarkers(g: Globe, ms: seq<Memory>): (r: Globe)
    ensures !g.ready ==> r == g
    ensures g.ready ==> r.ready && MarkersMatch(r.markers, ms)
    ensures g.ready ==> |r.listeners| == |g.listeners| + |ms|
    ensures r.listeners[..|g.listeners|] == g.listeners
    ensures g.ready ==> forall i :: 0 <= i < |ms| ==> r.listeners[|g.listeners| + i] == MarkerHandler(ms[i])
    ensures r.showAddForm == g.showAddForm && r.selectedPosition == g.selectedPosition
  {
    if !g.ready then g
    else
      g.(markers := seq(|ms|, i requires 0 <= i < |ms| => MarkerFor(ms[i])),
         listeners := g.listeners + seq(|ms|, i requires 0 <= i < |ms| => MarkerHandler(ms[i])))
  }

  /** Ids on the marker layer and ids in the collection coincide. */
  lemma MarkerIdsMatch(g: Globe, ms: seq<Memory>)
    requires g.ready
    ensures var r := UpdateMarkers(g, ms);
      forall id :: (exists k :: 0 <= k < |r.markers| && r.markers[k].memoryId == id) <==> id in Ids(ms)
  {
    var r := UpdateMarkers(g, ms);
    forall id | id in Ids(ms)
      ensures exists k :: 0 <= k < |r.markers| && r.markers[k].memoryId == id
    {
      var k :| 0 <= k < |ms| && Ids(ms)[k] == id;
      assert r.markers[k].memoryId == id;
    }
  }

  /** The asynchronous start-up: when the engine module loads and no handle
      exists yet, the handle is created, the terrain listener registered,
      and the markers built from the collection the start-up routine was
      given. A failed load leaves the globe as it was. */
  function Initialize(g: Globe, engineLoaded: bool, ms: seq<Memory>): (r: Globe)
    ensures !engineLoaded || g.ready ==> r == g
    ensures engineLoaded && !g.ready ==>
      && r.ready && MarkersMatch(r.markers, ms)
      && |r.listeners| == |g.listeners| + 1 + |ms|
      && r.listeners[..|g.listeners|] == g.listeners
      && r.listeners[|g.listeners|] == TerrainHandler
      && (forall i :: 0 <= i < |ms| ==> r.listeners[|g.listeners| + 1 + i] == MarkerHandler(ms[i]))
    ensures r.showAddForm == g.showAddForm && r.selectedPosition == g.selectedPosition
  {
    if !engineLoaded || g.ready then g
    else UpdateMarkers(g.(ready := true, listeners := g.listeners + [TerrainHandler]), ms)
  }

  /** `handleGlobeClick`: a terrain hit selects that position and shows the
      form (replacing any earlier position); a miss changes nothing. */
  function HandleGlobeClick(g: Globe, pick: PickResult): (r: Globe)
    ensures g.ready && pick.terrain.Some? ==> r.showAddForm && r.selectedPosition == pick.terrain
    ensures !g.ready || pick.terrain.None? ==> r == g
    ensures r.markers == g.markers && r.listeners == g.listeners && r.ready == g.ready
  {
    if g.ready && pick.terrain.Some? then g.(selectedPosition := pick.terrain, showAddForm := true)
    else g
  }

  /** A per-marker listener: one `onMemorySelect(memory)` per picked object
      carrying the memory's id. */
  function MarkerSelections(m: Memory, objects: seq<Option<string>>): (r: seq<Memory>)
    ensures |r| == multiset(objects)[Some(m.id)]
    ensures forall x :: x in r ==> x == m
    decreases |objects|
  {
    if |objects| == 0 then []
    else
      assert objects == [objects[0]] + objects[1..];
      (if objects[0] == Some(m.id) then [m] else []) + MarkerSelections(m, objects[1..])
  }

  /** One click delivered to every listener in registration order: the
      globe state after the terrain handler, and the memories passed to
      `onMemorySelect`, in call order. */
  function Dispatch(g: Globe, listeners: seq<Listener>, pick: PickResult): (r: (Globe, seq<Memory>))
    decreases |listeners|
  {
    if |listeners| == 0 then (g, [])
    else
      var (g1, sel1) := match listeners[0]
        case TerrainHandler => (HandleGlobeClick(g, pick), [])
        case MarkerHandler(m) => (g, MarkerSelections(m, pick.objects));
      var (g2, sel2) := Dispatch(g1, listeners[1..], pick);
      (g2, sel1 + sel2)
  }

  /** A click on the globe. */
  function Click(g: Globe, pick: PickResult): (r: (Globe, seq<Memory>))
  {
    Dispatch(g, g.listeners, pick)
  }

  lemma {:induction false} DispatchSelections(g: Globe, listeners: seq<Listener>, pick: PickResult, m: Memory)
    ensures m in Dispatch(g, listeners, pick).1 <==>
      MarkerHandler(m) in listeners && Some(m.id) in pick.objects
    decreases |listeners|
  {
    if |listeners| > 0 {
      var g1 := match listeners[0]
        case TerrainHandler => HandleGlobeClick(g, pick)
        case MarkerHandler(_) => g;
      DispatchSelections(g1, listeners[1..], pick, m);
      if listeners[0].MarkerHandler? {
        var sel := MarkerSelections(listeners[0].memory, pick.objects);
        if listeners[0].memory == m && Some(m.id) in pick.objects {
          assert multiset(pick.objects)[Some(m.id)] > 0;
          assert sel[0] in sel;
        }
      }
      assert listeners == [listeners[0]] + listeners[1..];
    }
  }

  lemma {:induction false} DispatchForm(g: Globe, listeners: seq<Listener>, pick: PickResult)
    ensures var r := Dispatch(g, listeners, pick).0;
      && r.markers == g.markers && r.listeners == g.listeners && r.ready == g.ready
      && (if g.ready && TerrainHandler in listeners && pick.terrain.Some?
          then r.showAddForm && r.selectedPosition == pick.terrain
          else r.showAddForm == g.showAddForm && r.selectedPosition == g.selectedPosition)
    decreases |listeners|
  {
    if |listeners| > 0 {
      var g1 := match listeners[0]
        case TerrainHandler => HandleGlobeClick(g, pick)
        case MarkerHandler(_) => g;
      DispatchForm(g1, listeners[1..], pick);
      assert listeners == [listeners[0]] + listeners[1..];
    }
  }

  /** What a click does. A memory is selected exactly when a listener for it
      is registered and some picked object carries its id. Independently, a
      terrain hit opens the form at the hit position even when a marker was
      hit too; a click without a terrain hit leaves the form as it was. */
  lemma ClickEffects(g: Globe, pick: PickResult)
    requires g.ready && TerrainHandler in g.listeners
    ensures forall m :: m in Click(g, pick).1 <==>
      MarkerHandler(m) in g.listeners && Some(m.id) in pick.objects
    ensures var r := Click(g, pick).0;
      && r.ready && r.markers == g.markers && r.listeners == g.listeners
      && (pick.terrain.Some? ==> r.showAddForm && r.selectedPosition == pick.terrain)
      && (pick.terrain.None? ==> r.showAddForm == g.showAddForm && r.selectedPosition == g.selectedPosition)
  {
    forall m
      ensures m in Click(g, pick).1 <==> MarkerHandler(m) in g.listeners && Some(m.id) in pick.objects
    {
      DispatchSelections(g, g.listeners, pick, m);
    }
    DispatchForm(g, g.listeners, pick);
  }

  /** `handleFormClose`: hides the form and forgets the position. */
  function HandleFormClose(g: Globe): (r: Globe)
    ensures !r.showAddForm && r.selectedPosition.None?
    ensures r.ready == g.ready && r.markers == g.markers && r.listeners == g.listeners
  {
    g.(showAddForm := false, selectedPosition := None)
  }

  /** The form is rendered when it is shown and a position is held. */
  predicate FormVisible(g: Globe)
  {
    g.showAddForm && g.selectedPosition.Some?
  }

  /** The click handler keeps the last terrain pick: fed two terrain picks
      in a row, it holds the second position and shows the form. In the
      running app the open form's overlay covers the canvas, so a second
      pick reaches the handler only after the form has closed. */
  lemma LastTerrainClickWins(g: Globe, first: PickResult, second: PickResult)
    requires g.ready && TerrainHandler in g.listeners
    requires first.terrain.Some? && second.terrain.Some?
    ensures var r := Click(Click(g, first).0, second).0;
      FormVisible(r) && r.selectedPosition == second.terrain
  {
    ClickEffects(g, first);
    ClickEffects(Click(g, first).0, second);
  }

  /** Closing hides the form; a terrain click shows it again. */
  lemma FormVisibility(g: Globe, pick: PickResult)
    requires g.ready && TerrainHandler in g.listeners && pick.terrain.Some?
    ensures !FormVisible(HandleFormClose(g))
    ensures FormVisible(Click(HandleFormClose(g), pick).0)
  {
    ClickEffects(HandleFormClose(g), pick);
  }
}

=== FILE: memory_gallery.dfy ===
/** The gallery: a tag bar with an "All" button and a toggleable active
    tag, a title/description search, and cards showing at most three tags
    plus an overflow count. */
module MemoryGallery {
  import opened Wrappers
  import opened Seqs
  import opened Text
  import opened Types
  import TagCatalog

  datatype GalleryState = GalleryState(searchTerm: string, activeTag: Option<string>)

  /** Search side: an empty term passes; otherwise the title or the
      description must contain the term, ignoring ASCII case. Tags are not
      searched here. */
  predicate MatchesSearch(m: Memory, term: string)
  {
    term == "" || ContainsIgnoringCase(m.title, term) || ContainsIgnoringCase(m.description, term)
  }

  /** Tag side: no active tag passes; otherwise the memory must carry it. */
  predicate MatchesTag(m: Memory, activeTag: Option<string>)
  {
    activeTag.None? || activeTag.value in m.tags
  }

  /** `filteredMemories`: an order-preserving selection holding exactly the
      memories that match the search and the tag. */
  function FilteredMemories(ms: seq<Memory>, s: GalleryState): (r: seq<Memory>)
    ensures IsSubseq(r, ms)
    ensures forall m :: m in r ==> m in ms && MatchesSearch(m, s.searchTerm) && MatchesTag(m, s.activeTag)
    ensures forall m :: m in ms && MatchesSearch(m, s.searchTerm) && MatchesTag(m, s.activeTag) ==> m in r
    ensures forall m :: m in ms ==>
      multiset(r)[m] == if MatchesSearch(m, s.searchTerm) && MatchesTag(m, s.activeTag) then multiset(ms)[m] else 0
  {
    FilterMultiset((m: Memory) => MatchesSearch(m, s.searchTerm) && MatchesTag(m, s.activeTag), ms);
    Filter((m: Memory) => MatchesSearch(m, s.searchTerm) && MatchesTag(m, s.activeTag), ms)
  }

  /** With an empty search and no active tag the gallery shows everything. */
  lemma NoFilterShowsAll(ms: seq<Memory>)
    ensures FilteredMemories(ms, GalleryState("", None)) == ms
  {
    FilterAllPass((m: Memory) => MatchesSearch(m, "") && MatchesTag(m, None), ms);
  }

  /** The search side never looks at tags: replacing a memory's tags does
      not change whether it matches the search. */
  lemma SearchIgnoresTags(m: Memory, term: string, tags: seq<string>)
    ensures MatchesSearch(m.(tags := tags), term) == MatchesSearch(m, term)
  {
  }

  /** The "All" button clears the active tag and keeps the search. */
  function ClickAll(s: GalleryState): (r: GalleryState)
    ensures r.activeTag.None? && r.searchTerm == s.searchTerm
  {
    s.(activeTag := None)
  }

  /** A tag button: clicking the active tag deselects it, clicking any other
      tag selects that one. */
  function ClickTag(s: GalleryState, tag: string): (r: GalleryState)
    ensures s.activeTag == Some(tag) ==> r.activeTag.None?
    ensures s.activeTag != Some(tag) ==> r.activeTag == Some(tag)
    ensures r.searchTerm == s.searchTerm
  {
    s.(activeTag := if s.activeTag == Some(tag) then None else Some(tag))
  }

  /** Two clicks on the same tag from the unfiltered state return to it. */
  lemma ClickTwiceDeselects(s: GalleryState, tag: string)
    requires s.activeTag.None?
    ensures ClickTag(ClickTag(s, tag), tag) == s
  {
  }

  /** With no search, selecting any tag from the tag bar never empties the
      gallery: some memory carries every listed tag. */
  lemma TagBarSelectionNonEmpty(ms: seq<Memory>, tag: string)
    requires tag in TagCatalog.AllTags(ms)
    ensures |FilteredMemories(ms, GalleryState("", Some(tag)))| > 0
  {
    var m :| m in ms && tag in m.tags;
    assert m in FilteredMemories(ms, GalleryState("", Some(tag)));
  }

  /** An active tag that no memory carries any more (its last carrier was
      deleted or edited) stays selected with no button of its own, and the
      gallery shows nothing until "All" or another tag is clicked. */
  lemma StaleActiveTagShowsNothing(ms: seq<Memory>, term: string, tag: string)
    requires tag !in TagCatalog.AllTags(ms)
    ensures FilteredMemories(ms, GalleryState(term, Some(tag))) == []
  {
    FilterNonePass((m: Memory) => MatchesSearch(m, term) && MatchesTag(m, Some(tag)), ms);
  }

  /** What a card shows of a memory's tags. */
  datatype CardTags = CardTags(shown: seq<string>, more: Option<nat>)

  /** At most the first three tags, and a "+n" badge for the rest when there
      are more than three. */
  function TagsOnCard(tags: seq<string>): (r: CardTags)
    ensures |r.shown| == if |tags| < 3 then |tags| else 3
    ensures r.shown == tags[..|r.shown|]
    ensures r.more.Some? <==> |tags| > 3
    ensures |r.shown| + r.more.GetOr(0) == |tags|
  {
    if |tags| > 3 then CardTags(tags[..3], Some(|tags| - 3)) else CardTags(tags, None)
  }
}

=== FILE: memory_store.dfy ===
/** The memories provider: the collection, its three mutators, and the
    load-once / save-after-every-change link to key-value storage. */
module MemoryStore {
  import opened Wrappers
  import opened Seqs
  import opened Types

  /** The single storage key the provider reads and writes. */
  const StorageKey: string := "travelMemories"

  type Storage = map<string, string>

  /** JSON serialisation, abstracted: encoding is total, decoding may fail. */
  datatype Codec = Codec(encode: seq<Memory> -> string, decode: string -> Option<seq<Memory>>)

  /** A codec whose decoder inverts its encoder, and whose encodings are
      never the empty string (JSON text of an array never is). */
  ghost predicate Faithful(c: Codec)
  {
    forall ms :: c.encode(ms) != "" && c.decode(c.encode(ms)) == Some(ms)
  }

  /** The provider's state: the collection and the storage it mirrors. */
  datatype Store = Store(memories: seq<Memory>, storage: Storage)

  /** The stored value under the key is the encoding of the collection. */
  predicate Persisted(s: Store, c: Codec)
  {
    StorageKey in s.storage && s.storage[StorageKey] == c.encode(s.memories)
  }

  // ---------------------------------------------------------------------
  // The three mutators
  // ---------------------------------------------------------------------

  /** `addMemory`: appends, without checking whether the id is already used. */
  function AddMemory(ms: seq<Memory>, m: Memory): (r: seq<Memory>)
    ensures |r| == |ms| + 1
    ensures r[..|ms|] == ms && r[|ms|] == m
    ensures forall id ::
      multiset(Ids(r))[id] == multiset(Ids(ms))[id] + (if id == m.id then 1 else 0)
  {
    var r := ms + [m];
    assert Ids(r) == Ids(ms) + [m.id];
    r
  }

  /** `updateMemory`: every record carrying the updated record's id is
      replaced by it; all other records, and the order, are kept. */
  function UpdateMemory(ms: seq<Memory>, updated: Memory): (r: seq<Memory>)
    ensures |r| == |ms|
    ensures Ids(r) == Ids(ms)
    ensures forall i :: 0 <= i < |ms| && ms[i].id == updated.id ==> r[i] == updated
    ensures forall i :: 0 <= i < |ms| && ms[i].id != updated.id ==> r[i] == ms[i]
  {
    seq(|ms|, i requires 0 <= i < |ms| => if ms[i].id == updated.id then updated else ms[i])
  }

  /** `deleteMemory`: keeps exactly the records with another id, in order. */
  function DeleteMemory(ms: seq<Memory>, id: string): (r: seq<Memory>)
    ensures id !in Ids(r)
    ensures forall m :: m in r ==> m in ms && m.id != id
    ensures forall m :: m in ms && m.id != id ==> m in r
    ensures IsSubseq(r, ms)
  {
    var r := Filter((m: Memory) => m.id != id, ms);
    IdsAvoid(r, id);
    r
  }

  /** A collection none of whose records has `id` lists no `id`. */
  lemma IdsAvoid(ms: seq<Memory>, id: string)
    requires forall m :: m in ms ==> m.id != id
    ensures id !in Ids(ms)
  {
    forall i | 0 <= i < |ms|
      ensures Ids(ms)[i] != id
    {
      assert ms[i] in ms;
    }
  }

  // ---------------------------------------------------------------------
  // Properties of the mutators
  // ---------------------------------------------------------------------

  /** Adding a record whose id is already present leaves two records with it. */
  lemma AddDuplicateId(ms: seq<Memory>, m: Memory)
    requires m.id in Ids(ms)
    ensures multiset(Ids(AddMemory(ms, m)))[m.id] >= 2
  {
    assert multiset(Ids(ms))[m.id] >= 1;
  }

  /** Updating an id that is not present changes nothing. */
  lemma UpdateAbsentIsNoop(ms: seq<Memory>, updated: Memory)
    requires updated.id !in Ids(ms)
    ensures UpdateMemory(ms, updated) == ms
  {
    var r := UpdateMemory(ms, updated);
    forall i | 0 <= i < |ms|
      ensures r[i] == ms[i]
    {
      assert Ids(ms)[i] == ms[i].id;
    }
  }

  /** Updating twice with the same record is updating once. */
  lemma UpdateIdempotent(ms: seq<Memory>, updated: Memory)
    ensures UpdateMemory(UpdateMemory(ms, updated), updated) == UpdateMemory(ms, updated)
  {
  }

  /** The number of records removed is the number that carried the id. */
  lemma DeleteCount(ms: seq<Memory>, id: string)
    ensures |DeleteMemory(ms, id)| == |ms| - multiset(Ids(ms))[id]
  {
    DeleteCountIds(ms, id);
  }

  lemma {:induction false} DeleteCountIds(ms: seq<Memory>, id: string)
    ensures |Filter((m: Memory) => m.id != id, ms)| == |ms| - multiset(Ids(ms))[id]
    decreases |ms|
  {
    if |ms| > 0 {
      assert Ids(ms) == [ms[0].id] + Ids(ms[1..]);
      assert multiset(Ids(ms)) == multiset{ms[0].id} + multiset(Ids(ms[1..]));
      DeleteCountIds(ms[1..], id);
    }
  }

  /** Deleting twice is deleting once, and raises nothing the second time. */
  lemma DeleteIdempotent(ms: seq<Memory>, id: string)
    ensures DeleteMemory(DeleteMemory(ms, id), id) == DeleteMemory(ms, id)
  {
    FilterIdempotent((m: Memory) => m.id != id, ms);
  }

  /** Deleting an id that is not present changes nothing. */
  lemma DeleteAbsentIsNoop(ms: seq<Memory>, id: string)
    requires id !in Ids(ms)
    ensures DeleteMemory(ms, id) == ms
  {
    forall m | m in ms
      ensures m.id != id
    {
      var i :| 0 <= i < |ms| && ms[i] == m;
      assert Ids(ms)[i] == m.id;
    }
    FilterAllPass((m: Memory) => m.id != id, ms);
  }

  /** Deleting a freshly added record's id undoes the add. */
  lemma DeleteUndoesFreshAdd(ms: seq<Memory>, m: Memory)
    requires m.id !in Ids(ms)
    ensures DeleteMemory(AddMemory(ms, m), m.id) == ms
  {
    FilterConcat((x: Memory) => x.id != m.id, ms, [m]);
    DeleteAbsentIsNoop(ms, m.id);
  }

  // ---------------------------------------------------------------------
  // Storage: load on mount, save after every change
  // ---------------------------------------------------------------------

  /** The load effect: an absent key, an empty stored string (falsy in the
      source) or a payload that fails to decode all leave the initial empty
      collection; otherwise the decoded list is used. */
  function Load(storage: Storage, c: Codec): (r: seq<Memory>)
    ensures StorageKey !in storage ==> r == []
    ensures StorageKey in storage && storage[StorageKey] == "" ==> r == []
    ensures StorageKey in storage && storage[StorageKey] != "" ==>
      r == c.decode(storage[StorageKey]).GetOr([])
  {
    if StorageKey in storage && storage[StorageKey] != "" then
      match c.decode(storage[StorageKey])
      case Some(ms) => ms
      case None => []
    else []
  }

  /** The save effect: writes the encoding under the key, nothing else. */
  function Save(storage: Storage, c: Codec, ms: seq<Memory>): (r: Storage)
    ensures Persisted(Store(ms, r), c)
    ensures forall k :: k in storage && k != StorageKey ==> k in r && r[k] == storage[k]
    ensures r.Keys == storage.Keys + {StorageKey}
  {
    storage[StorageKey := c.encode(ms)]
  }

  /** Mounting the provider: the load effect, then the save effect, which
      writes back whatever the collection became (so an undecodable payload
      is overwritten by the encoding of the empty list). */
  function Mount(storage: Storage, c: Codec): (r: Store)
    ensures Persisted(r, c)
    ensures r.memories == Load(storage, c)
  {
    var ms := Load(storage, c);
    Store(ms, Save(storage, c, ms))
  }

  /** Mounting again over what a mount wrote changes nothing: the state is
      read back exactly and the same value is written again. */
  lemma RemountIsStable(storage: Storage, c: Codec)
    requires Faithful(c)
    ensures Mount(Mount(storage, c).storage, c) == Mount(storage, c)
  {
    var s := Mount(storage, c);
    assert c.encode(s.memories) != "" && c.decode(c.encode(s.memories)) == Some(s.memories);
    assert Save(s.storage, c, s.memories) == s.storage;
  }

  /** What the load effect passes to `setMemories`: nothing when the value
      is absent, empty or unparsable, the parsed list otherwise. */
  function LoadEffect(storage: Storage, c: Codec): (r: Option<seq<Memory>>)
    ensures r.None? <==>
      StorageKey !in storage || storage[StorageKey] == "" || c.decode(storage[StorageKey]).None?
    ensures r.GetOr([]) == Load(storage, c)
  {
    if StorageKey in storage && storage[StorageKey] != "" then c.decode(storage[StorageKey])
    else None
  }

  /** Mounting as the two effects are written. The state starts empty, so
      the first save writes the empty list before the loaded list is
      rendered. With development-mode strict effects both effects run a
      second time, and the second load reads what the first save wrote.
      The queued updates then apply in order, and if any was queued the
      re-render saves the final list. */
  function MountAsWritten(storage: Storage, c: Codec, strictEffects: bool): (r: Store)
    ensures Persisted(r, c)
  {
    var first := LoadEffect(storage, c);
    var written := Save(storage, c, []);
    var second := if strictEffects then LoadEffect(written, c) else None;
    var queued := (if first.Some? then [first.value] else []) + (if second.Some? then [second.value] else []);
    if |queued| == 0 then Store([], written)
    else
      var ms := queued[|queued| - 1];
      Store(ms, Save(written, c, ms))
  }

  /** Without strict effects the written mount ends where `Mount` does: the
      early write of the empty list is overwritten. */
  lemma MountAsWrittenWithoutStrictEffects(storage: Storage, c: Codec)
    ensures MountAsWritten(storage, c, false) == Mount(storage, c)
  {
    var ms := Load(storage, c);
    assert Save(Save(storage, c, []), c, ms) == Save(storage, c, ms);
  }

  /** With strict effects the second load reads back the empty list the
      first save wrote, so every mount ends with an empty collection and an
      empty list in storage, whatever was stored. */
  lemma StrictMountDropsStored(storage: Storage, c: Codec)
    requires Faithful(c)
    ensures MountAsWritten(storage, c, true).memories == []
    ensures MountAsWritten(storage, c, true).storage[StorageKey] == c.encode([])
  {
    var written := Save(storage, c, []);
    assert c.encode([]) != "" && c.decode(c.encode([])) == Some([]);
    assert LoadEffect(written, c) == Some([]);
  }

  /** The stored collection is lost under strict effects whenever there was
      one, while `Mount` restores it. */
  lemma StrictMountLosesData(storage: Storage, c: Codec)
    requires Faithful(c) && Load(storage, c) != []
    ensures MountAsWritten(storage, c, true).memories != Mount(storage, c).memories
  {
    StrictMountDropsStored(storage, c);
  }

  /** An inbound call on the provider. */
  datatype Op = Add(memory: Memory) | Update(memory: Memory) | Delete(id: string)

  /** The collection after one call, without the storage side. */
  function Mutate(ms: seq<Memory>, op: Op): seq<Memory>
  {
    match op
    case Add(m) => AddMemory(ms, m)
    case Update(m) => UpdateMemory(ms, m)
    case Delete(id) => DeleteMemory(ms, id)
  }

  /** Applies one mutator, then the save effect it triggers: the
      collection is the mutator's result, the key holds its encoding, and
      every other key is left alone. */
  function Apply(s: Store, c: Codec, op: Op): (r: Store)
    ensures Persisted(r, c)
    ensures op.Add? ==> r.memories == AddMemory(s.memories, op.memory)
    ensures op.Update? ==> r.memories == UpdateMemory(s.memories, op.memory)
    ensures op.Delete? ==> r.memories == DeleteMemory(s.memories, op.id)
    ensures forall k :: k in s.storage && k != StorageKey ==> k in r.storage && r.storage[k] == s.storage[k]
  {
    var ms := Mutate(s.memories, op);
    Store(ms, Save(s.storage, c, ms))
  }

  /** The collection after a sequence of calls, replayed on the list alone. */
  function Replay(ms: seq<Memory>, ops: seq<Op>): seq<Memory>
    decreases |ops|
  {
    if |ops| == 0 then ms else Replay(Mutate(ms, ops[0]), ops[1..])
  }

  /** Applies a sequence of calls in order: the collection is the replay of
      the mutators alone, storage mirrors it, and other keys are kept. */
  function ApplyAll(s: Store, c: Codec, ops: seq<Op>): (r: Store)
    requires Persisted(s, c)
    ensures Persisted(r, c)
    ensures r.memories == Replay(s.memories, ops)
    ensures forall k :: k in s.storage && k != StorageKey ==> k in r.storage && r.storage[k] == s.storage[k]
    decreases |ops|
  {
    if |ops| == 0 then s else ApplyAll(Apply(s, c, ops[0]), c, ops[1..])
  }

  /** Running two batches of calls one after the other is running their
      concatenation. */
  lemma {:induction false} ApplyAllConcat(s: Store, c: Codec, ops1: seq<Op>, ops2: seq<Op>)
    requires Persisted(s, c)
    ensures ApplyAll(s, c, ops1 + ops2) == ApplyAll(ApplyAll(s, c, ops1), c, ops2)
    decreases |ops1|
  {
    if |ops1| > 0 {
      assert (ops1 + ops2)[0] == ops1[0];
      assert (ops1 + ops2)[1..] == ops1[1..] + ops2;
      ApplyAllConcat(Apply(s, c, ops1[0]), c, ops1[1..], ops2);
    } else {
      assert ops1 + ops2 == ops2;
    }
  }

  /** A restart reading the stored payload yields the same collection,
      field for field and in order, whatever calls preceded it. */
  lemma {:induction false} RestartRestores(storage: Storage, c: Codec, ops: seq<Op>)
    requires Faithful(c)
    ensures var s := ApplyAll(Mount(storage, c), c, ops);
      Mount(s.storage, c).memories == s.memories
  {
    var s := ApplyAll(Mount(storage, c), c, ops);
    assert s.storage[StorageKey] == c.encode(s.memories);
    assert c.encode(s.memories) != "" && c.decode(c.encode(s.memories)) == Some(s.memories);
  }
}

=== FILE: seqs.dfy ===
/** Generic sequence operations shared by the store and the views:
    `Array.prototype.filter` and the subsequence relation it establishes. */
module Seqs {

  /** `b` contains the elements of `a` in the same relative order
      (possibly with other elements interleaved). */
  predicate IsSubseq<T(==)>(a: seq<T>, b: seq<T>)
    decreases |b|
  {
    |a| == 0 ||
    (|b| > 0 && ((a[0] == b[0] && IsSubseq(a[1..], b[1..])) || IsSubseq(a, b[1..])))
  }

  /** `xs.filter(p)`: the elements satisfying `p`, in their original order. */
  function Filter<T(==)>(p: T -> bool, xs: seq<T>): (r: seq<T>)
    ensures |r| <= |xs|
    ensures forall x :: x in r ==> x in xs && p(x)
    ensures forall x :: x in xs && p(x) ==> x in r
    ensures IsSubseq(r, xs)
  {
    if |xs| == 0 then []
    else
      var rest := Filter(p, xs[1..]);
      if p(xs[0]) then
        assert ([xs[0]] + rest)[1..] == rest;
        [xs[0]] + rest
      else rest
  }

  /** A filter keeps every passing element as often as it occurs, and drops
      every failing one. */
  lemma {:induction false} FilterMultiset<T>(p: T -> bool, xs: seq<T>)
    ensures forall x :: x in xs ==> multiset(Filter(p, xs))[x] == if p(x) then multiset(xs)[x] else 0
    decreases |xs|
  {
    if |xs| > 0 {
      FilterMultiset(p, xs[1..]);
      assert xs == [xs[0]] + xs[1..];
      assert multiset(xs) == multiset{xs[0]} + multiset(xs[1..]);
      var rest := Filter(p, xs[1..]);
      if p(xs[0]) {
        assert Filter(p, xs) == [xs[0]] + rest;
        assert multiset(Filter(p, xs)) == multiset{xs[0]} + multiset(rest);
      } else {
        assert Filter(p, xs) == rest;
      }
      forall x | x in xs
        ensures multiset(Filter(p, xs))[x] == if p(x) then multiset(xs)[x] else 0
      {
        if x !in xs[1..] {
          assert multiset(xs[1..])[x] == 0;
          assert x !in rest;
        }
      }
    }
  }

  /** Filtering distributes over concatenation. */
  lemma {:induction false} FilterConcat<T>(p: T -> bool, xs: seq<T>, ys: seq<T>)
    ensures Filter(p, xs + ys) == Filter(p, xs) + Filter(p, ys)
    decreases |xs|
  {
    if |xs| == 0 {
      assert xs + ys == ys;
    } else {
      assert (xs + ys)[1..] == xs[1..] + ys;
      FilterConcat(p, xs[1..], ys);
    }
  }

  /** A filter keeps everything exactly when every element passes. */
  lemma {:induction false} FilterAllPass<T>(p: T -> bool, xs: seq<T>)
    requires forall x :: x in xs ==> p(x)
    ensures Filter(p, xs) == xs
    decreases |xs|
  {
    if |xs| > 0 {
      assert forall x :: x in xs[1..] ==> x in xs;
      FilterAllPass(p, xs[1..]);
    }
  }

  /** A filter keeps nothing when no element passes. */
  lemma {:induction false} FilterNonePass<T>(p: T -> bool, xs: seq<T>)
    requires forall x :: x in xs ==> !p(x)
    ensures Filter(p, xs) == []
    decreases |xs|
  {
    if |xs| > 0 {
      assert forall x :: x in xs[1..] ==> x in xs;
      FilterNonePass(p, xs[1..]);
    }
  }

  /** Filtering twice by the same predicate is filtering once. */
  lemma FilterIdempotent<T>(p: T -> bool, xs: seq<T>)
    ensures Filter(p, Filter(p, xs)) == Filter(p, xs)
  {
    FilterAllPass(p, Filter(p, xs));
  }
}

=== FILE: session.dfy ===
/** The whole application wired together: the memories provider, the globe
    controller, the creation form's submit, and the app's selection state.
    The outcomes of a collection change are taken in the order mutate,
    save, rebuild markers. */
module Session {
  import opened Wrappers
  import opened Types
  import MemoryStore
  import GlobeView
  import AddMemoryForm
  import App

  /** The provider, the globe instance, the app state, and the collection
      the current globe instance saw on its first render (the one its
      start-up routine closes over). */
  datatype Session = Session(
    store: MemoryStore.Store,
    globe: GlobeView.Globe,
    app: App.AppState,
    mountedWith: seq<Memory>)

  /** What holds in every reachable state: storage mirrors the collection;
      a ready globe shows exactly the collection's markers and has the
      terrain listener and a listener for every current memory; an unready
      globe has nothing; the form flag and the position move together; the
      globe is unmounted while the gallery is shown; and the modal flag and
      the selection move together. */
  predicate Invariant(s: Session, c: MemoryStore.Codec)
  {
    && MemoryStore.Persisted(s.store, c)
    && (s.globe.ready ==>
          && GlobeView.MarkersMatch(s.globe.markers, s.store.memories)
          && GlobeView.TerrainHandler in s.globe.listeners
          && forall m :: m in s.store.memories ==> GlobeView.MarkerHandler(m) in s.globe.listeners)
    && (!s.globe.ready ==> s.globe == GlobeView.Unmounted)
    && (s.globe.showAddForm <==> s.globe.selectedPosition.Some?)
    && (s.app.activeView == App.GalleryTab ==> s.globe == GlobeView.Unmounted)
    && App.Consistent(s.app)
  }

  /** Start-up: the provider mounts (load, then save); the globe has no
      engine handle yet and first rendered before the load, with the
      initial empty collection; the globe view is active and nothing is
      selected. */
  function Start(storage: MemoryStore.Storage, c: MemoryStore.Codec): (r: Session)
    ensures Invariant(r, c)
    ensures r.store.memories == MemoryStore.Load(storage, c)
    ensures r.mountedWith == [] && r.globe == GlobeView.Unmounted
  {
    Session(MemoryStore.Mount(storage, c), GlobeView.Unmounted, App.Initial, [])
  }

  lemma RebuildKeepsListeners(g: GlobeView.Globe, ms: seq<Memory>)
    requires g.ready
    ensures var r := GlobeView.UpdateMarkers(g, ms);
      (forall l :: l in g.listeners ==> l in r.listeners) &&
      (forall m :: m in ms ==> GlobeView.MarkerHandler(m) in r.listeners)
  {
    var r := GlobeView.UpdateMarkers(g, ms);
    forall l | l in g.listeners
      ensures l in r.listeners
    {
      var i :| 0 <= i < |g.listeners| && g.listeners[i] == l;
      assert r.listeners[..|g.listeners|][i] == l;
    }
    forall m | m in ms
      ensures GlobeView.MarkerHandler(m) in r.listeners
    {
      var i :| 0 <= i < |ms| && ms[i] == m;
      assert r.listeners[|g.listeners| + i] == GlobeView.MarkerHandler(m);
    }
  }

  /** The engine module finished loading: if the globe is still on screen
      and has no handle, the handle is created and the markers are built
      from the current collection. */
  function EngineReady(s: Session, c: MemoryStore.Codec, engineLoaded: bool): (r: Session)
    requires Invariant(s, c)
    ensures Invariant(r, c)
    ensures r.store == s.store && r.app == s.app && r.mountedWith == s.mountedWith
    ensures engineLoaded && s.app.activeView == App.GlobeTab ==> r.globe.ready
  {
    var g := s.globe;
    if s.app.activeView == App.GalleryTab then s
    else if engineLoaded && !g.ready then
      RebuildKeepsListeners(g.(ready := true, listeners := g.listeners + [GlobeView.TerrainHandler]), s.store.memories);
      s.(globe := GlobeView.Initialize(g, engineLoaded, s.store.memories))
    else s.(globe := GlobeView.Initialize(g, engineLoaded, s.store.memories))
  }

  /** The start-up routine as written: it runs the marker rebuild of the
      instance's first render, whose collection is `mountedWith`. */
  function EngineReadyAsWritten(s: Session, engineLoaded: bool): (r: Session)
    ensures r.store == s.store && r.app == s.app
    ensures engineLoaded && s.app.activeView == App.GlobeTab && !s.globe.ready ==>
      r.globe.ready && GlobeView.MarkersMatch(r.globe.markers, s.mountedWith)
  {
    if s.app.activeView == App.GalleryTab then s
    else s.(globe := GlobeView.Initialize(s.globe, engineLoaded, s.mountedWith))
  }

  /** When the collection has not changed since the instance first rendered,
      the start-up as written is the corrected one. */
  lemma EngineReadyAgreesWhenUnchanged(s: Session, c: MemoryStore.Codec, engineLoaded: bool)
    requires Invariant(s, c) && s.mountedWith == s.store.memories
    ensures EngineReadyAsWritten(s, engineLoaded) == EngineReady(s, c, engineLoaded)
  {
  }

  /** A stored collection loaded at start-up gets no markers when the
      engine becomes ready afterwards: the globe is ready, the collection is
      not empty, and the marker layer is. */
  lemma StartupMarkersMissing(storage: MemoryStore.Storage, c: MemoryStore.Codec)
    requires MemoryStore.Load(storage, c) != []
    ensures var s := EngineReadyAsWritten(Start(storage, c), true);
      && s.store.memories != []
      && s.globe.ready && s.globe.markers == []
      && !Invariant(s, c)
  {
    var s := EngineReadyAsWritten(Start(storage, c), true);
    assert GlobeView.MarkersMatch(s.globe.markers, []);
  }

  /** A collection change: the mutator, the save effect, then the marker
      rebuild. */
  function Change(s: Session, c: MemoryStore.Codec, op: MemoryStore.Op): (r: Session)
    requires Invariant(s, c)
    ensures Invariant(r, c)
    ensures r.store == MemoryStore.Apply(s.store, c, op)
    ensures r.app == s.app
    ensures r.globe.showAddForm == s.globe.showAddForm && r.globe.selectedPosition == s.globe.selectedPosition
  {
    var store := MemoryStore.Apply(s.store, c, op);
    if s.globe.ready then
      RebuildKeepsListeners(s.globe, store.memories);
      s.(store := store, globe := GlobeView.UpdateMarkers(s.globe, store.memories))
    else s.(store := store, globe := GlobeView.UpdateMarkers(s.globe, store.memories))
  }

  /** A click on the globe: every listener runs, then every selection
      reaches the app in call order. */
  function ClickGlobe(s: Session, c: MemoryStore.Codec, pick: GlobeView.PickResult): (r: Session)
    requires Invariant(s, c)
    ensures Invariant(r, c)
    ensures r.store == s.store
  {
    if s.globe.ready then
      GlobeView.ClickEffects(s.globe, pick);
      var (g, selected) := GlobeView.Click(s.globe, pick);
      s.(globe := g, app := App.SelectAll(s.app, selected))
    else s
  }

  /** The form's close button, cancel button, or the close after a submit. */
  function CloseForm(s: Session, c: MemoryStore.Codec): (r: Session)
    requires Invariant(s, c)
    ensures Invariant(r, c)
    ensures !GlobeView.FormVisible(r.globe)
    ensures !r.globe.showAddForm && r.globe.selectedPosition.None?
    ensures r.globe.ready == s.globe.ready && r.globe.markers == s.globe.markers && r.globe.listeners == s.globe.listeners
    ensures r.store == s.store && r.app == s.app
  {
    s.(globe := GlobeView.HandleFormClose(s.globe))
  }

  /** Pressing save on the visible form with the form's fields and a fresh
      id: the add, then the close. Nothing happens when the form is not
      rendered or the button is disabled. */
  function SubmitForm(s: Session, c: MemoryStore.Codec, f: AddMemoryForm.Form, id: string): (r: Session)
    requires Invariant(s, c)
    ensures Invariant(r, c)
    ensures GlobeView.FormVisible(s.globe) && !AddMemoryForm.SubmitDisabled(f) ==>
      && r.store.memories == s.store.memories +
           [AddMemoryForm.BuildMemory(id, s.globe.selectedPosition.value, f)]
      && r.globe.markers == GlobeView.UpdateMarkers(s.globe, r.store.memories).markers
      && !GlobeView.FormVisible(r.globe)
    ensures !GlobeView.FormVisible(s.globe) || AddMemoryForm.SubmitDisabled(f) ==> r == s
  {
    if GlobeView.FormVisible(s.globe) then
      var (_, effects) := AddMemoryForm.Submit(f, s.globe.selectedPosition.value, id);
      if AddMemoryForm.SubmitDisabled(f) then
        ApplyEffects(s, c, effects)
      else
        AddThenClose(s, c, AddMemoryForm.BuildMemory(id, s.globe.selectedPosition.value, f));
        ApplyEffects(s, c, effects)
    else s
  }

  /** Carries out the form's calls in order. */
  function ApplyEffects(s: Session, c: MemoryStore.Codec, effects: seq<AddMemoryForm.Effect>): (r: Session)
    requires Invariant(s, c)
    ensures Invariant(r, c)
    decreases |effects|
  {
    if |effects| == 0 then s
    else
      var s1 := match effects[0]
        case AddMemoryCall(m) => Change(s, c, MemoryStore.Add(m))
        case CloseCall => CloseForm(s, c);
      ApplyEffects(s1, c, effects[1..])
  }

  /** Cancelling the form only closes it: the collection, storage and app
      state are untouched, the form is hidden with its position forgotten,
      and the markers and listeners stay as they were. */
  lemma CancelOnlyCloses(s: Session, c: MemoryStore.Codec, f: AddMemoryForm.Form)
    requires Invariant(s, c)
    ensures var r := ApplyEffects(s, c, AddMemoryForm.Cancel(f));
      && r == CloseForm(s, c)
      && r.store == s.store && r.app == s.app
      && !r.globe.showAddForm && r.globe.selectedPosition.None?
      && r.globe.markers == s.globe.markers && r.globe.listeners == s.globe.listeners
  {
    var effects := AddMemoryForm.Cancel(f);
    assert effects[1..] == [];
  }

  /** The submit's two calls: the record is appended, the markers are
      rebuilt from the new collection, and the form is closed. */
  lemma AddThenClose(s: Session, c: MemoryStore.Codec, m: Memory)
    requires Invariant(s, c)
    ensures var r := ApplyEffects(s, c, [AddMemoryForm.AddMemoryCall(m), AddMemoryForm.CloseCall]);
      && r.store.memories == s.store.memories + [m]
      && r.globe.markers == GlobeView.UpdateMarkers(s.globe, r.store.memories).markers
      && !GlobeView.FormVisible(r.globe)
  {
    var effects := [AddMemoryForm.AddMemoryCall(m), AddMemoryForm.CloseCall];
    var s1 := Change(s, c, MemoryStore.Add(m));
    var s2 := CloseForm(s1, c);
    assert effects[1..] == [AddMemoryForm.CloseCall];
    assert effects[1..][1..] == [];
    assert ApplyEffects(s1, c, [AddMemoryForm.CloseCall]) == ApplyEffects(s2, c, []);
    assert s1.store.memories == s.store.memories + [m];
  }

  /** An event on the app's own state. Switching views unmounts the globe
      (its engine handle, listeners and form state are gone); switching
      back mounts a new instance that first renders with the current
      collection. */
  function AppEvent(s: Session, c: MemoryStore.Codec, e: App.Event): (r: Session)
    requires Invariant(s, c)
    ensures Invariant(r, c)
    ensures r.store == s.store && r.app == App.Step(s.app, e)
    ensures !(e.ShowView? && e.view != s.app.activeView) ==> r.globe == s.globe
    ensures e.ShowView? && e.view != s.app.activeView ==> r.globe == GlobeView.Unmounted
    ensures e == App.ShowView(App.GlobeTab) && s.app.activeView == App.GalleryTab ==>
      r.mountedWith == r.store.memories
  {
    var app := App.Step(s.app, e);
    if e.ShowView? && e.view != s.app.activeView then
      Session(s.store, GlobeView.Unmounted, app,
        if e.view == App.GlobeTab then s.store.memories else s.mountedWith)
    else s.(app := app)
  }

  /** Returning from the gallery and then loading the engine shows every
      memory's marker: the remounted instance first rendered with the
      current collection. */
  lemma RemountShowsMarkers(s: Session, c: MemoryStore.Codec)
    requires Invariant(s, c) && s.app.activeView == App.GalleryTab
    ensures var r := EngineReadyAsWritten(AppEvent(s, c, App.ShowView(App.GlobeTab)), true);
      r.globe.ready && GlobeView.MarkersMatch(r.globe.markers, r.store.memories)
  {
    var s1 := AppEvent(s, c, App.ShowView(App.GlobeTab));
    EngineReadyAgreesWhenUnchanged(s1, c, true);
  }

  /** A click on bare terrain opens the form at the clicked position and
      changes nothing else. */
  lemma TerrainClickOpensForm(s: Session, c: MemoryStore.Codec, at: Position)
    requires Invariant(s, c) && s.globe.ready
    ensures var r := ClickGlobe(s, c, GlobeView.PickResult(Some(at), []));
      && r.store == s.store && r.app == s.app
      && r.globe.ready && r.globe.markers == s.globe.markers
      && GlobeView.FormVisible(r.globe) && r.globe.selectedPosition == Some(at)
  {
    var pick := GlobeView.PickResult(Some(at), []);
    GlobeView.ClickEffects(s.globe, pick);
    var selected := GlobeView.Click(s.globe, pick).1;
    assert forall i :: 0 <= i < |selected| ==> selected[i] in selected;
  }

  /** Click bare terrain, then save the form: the collection gains exactly
      one record, at the end, at the clicked position, with the typed title,
      the freshly rendered form's default date and the parsed tags; the last marker on the globe is
      the new record's; and the form closes. */
  lemma TerrainClickThenSubmit(s: Session, c: MemoryStore.Codec, at: Position, id: string, isoNow: string)
    requires Invariant(s, c) && s.globe.ready
    ensures var f := AddMemoryForm.InitialForm(isoNow).(title := "Beach Day", tags := "sun, sand");
      var s2 := SubmitForm(ClickGlobe(s, c, GlobeView.PickResult(Some(at), [])), c, f, id);
      && s2.store.memories == s.store.memories + [Memory(id, "Beach Day", "", at.latitude, at.longitude, f.date, "", ["sun", "sand"])]
      && s2.globe.markers[|s2.globe.markers| - 1] == GlobeView.MarkerFor(s2.store.memories[|s.store.memories|])
      && !GlobeView.FormVisible(s2.globe)
  {
    var f := AddMemoryForm.InitialForm(isoNow).(title := "Beach Day", tags := "sun, sand");
    var s1 := ClickGlobe(s, c, GlobeView.PickResult(Some(at), []));
    TerrainClickOpensForm(s, c, at);
    var m := AddMemoryForm.BuildMemory(id, at, f);
    assert m == Memory(id, "Beach Day", "", at.latitude, at.longitude, f.date, "", ["sun", "sand"]) by {
      AddMemoryForm.ParseSunSand();
    }
    assert !AddMemoryForm.SubmitDisabled(f);
    var s2 := SubmitForm(s1, c, f, id);
    assert s2.store.memories == s.store.memories + [m];
    assert GlobeView.MarkersMatch(s2.globe.markers, s2.store.memories);
  }

  /** A click on a marker over terrain: the memory whose id the picked
      object carries is shown in the detail modal, and the creation form
      opens as well, because the terrain handler ignores picked objects. */
  lemma MarkerOverTerrain(s: Session, c: MemoryStore.Codec, m: Memory, at: Position)
    requires Invariant(s, c) && s.globe.ready && m in s.store.memories
    ensures var r := ClickGlobe(s, c, GlobeView.PickResult(Some(at), [Some(m.id)]));
      && App.DetailVisible(r.app) && r.app.selectedMemory.value.id == m.id
      && GlobeView.FormVisible(r.globe) && r.globe.selectedPosition == Some(at)
  {
    var pick := GlobeView.PickResult(Some(at), [Some(m.id)]);
    GlobeView.ClickEffects(s.globe, pick);
    var (g, selected) := GlobeView.Click(s.globe, pick);
    assert m in selected;
    forall x | x in selected
      ensures x.id == m.id
    {
      assert Some(x.id) in pick.objects;
    }
    assert selected[|selected| - 1] in selected;
  }

  /** Listeners outlive the records they were made for: after a memory is
      replaced by an update, a click on its marker still calls
      `onMemorySelect` with the old record, as well as with the new one. */
  lemma StaleListenerAfterUpdate(s: Session, c: MemoryStore.Codec, prior: Memory, updated: Memory)
    requires Invariant(s, c) && s.globe.ready && prior in s.store.memories
    requires updated.id == prior.id
    ensures var s1 := Change(s, c, MemoryStore.Update(updated));
      var selected := GlobeView.Click(s1.globe, GlobeView.PickResult(None, [Some(prior.id)])).1;
      prior in selected && updated in selected
  {
    var s1 := Change(s, c, MemoryStore.Update(updated));
    var i :| 0 <= i < |s.store.memories| && s.store.memories[i] == prior;
    assert s1.store.memories[i] == updated;
    RebuildKeepsListeners(s.globe, s1.store.memories);
    GlobeView.ClickEffects(s1.globe, GlobeView.PickResult(None, [Some(prior.id)]));
  }
}

=== FILE: sidebar.dfy ===
/** The sidebar's derived views: the five most recent memories, the
    case-insensitive search, and which panel is shown (the tag list is
    `TagCatalog.AllTags`).
    `new Date(d).getTime()` is the parameter `dateKey`. */
module Sidebar {
  import opened Wrappers
  import opened Seqs
  import opened Text
  import opened Types

  // ---------------------------------------------------------------------
  // Recent memories
  // ---------------------------------------------------------------------

  /** Most recent first: dates never increase along the sequence. */
  predicate NewestFirst(s: seq<Memory>, dateKey: string -> int)
  {
    forall i, j :: 0 <= i < j < |s| ==> dateKey(s[i].date) >= dateKey(s[j].date)
  }

  /** Inserts `m` before the first record that is not newer than it. */
  function Insert(m: Memory, s: seq<Memory>, dateKey: string -> int): (r: seq<Memory>)
    ensures |r| == |s| + 1
    ensures multiset(r) == multiset(s) + multiset{m}
  {
    if |s| == 0 || dateKey(s[0].date) <= dateKey(m.date) then
      [m] + s
    else
      assert s == [s[0]] + s[1..];
      [s[0]] + Insert(m, s[1..], dateKey)
  }

  /** Insertion keeps a newest-first sequence newest-first. */
  lemma {:induction false} InsertNewestFirst(m: Memory, s: seq<Memory>, dateKey: string -> int)
    requires NewestFirst(s, dateKey)
    ensures NewestFirst(Insert(m, s, dateKey), dateKey)
    decreases |s|
  {
    if |s| > 0 && dateKey(s[0].date) > dateKey(m.date) {
      InsertNewestFirst(m, s[1..], dateKey);
      var rest := Insert(m, s[1..], dateKey);
      forall j | 0 <= j < |rest|
        ensures dateKey(rest[j].date) <= dateKey(s[0].date)
      {
        assert rest[j] in multiset(rest);
        if rest[j] != m {
          assert rest[j] in multiset(s[1..]);
          var k :| 0 <= k < |s[1..]| && s[1..][k] == rest[j];
          assert s[k + 1] == rest[j];
        }
      }
    }
  }

  /** The comparator sort `(a, b) => time(b) - time(a)` on a copy of the
      collection: a stable sort, newest first. */
  function SortNewestFirst(ms: seq<Memory>, dateKey: string -> int): (r: seq<Memory>)
    ensures |r| == |ms|
    ensures NewestFirst(r, dateKey)
    ensures multiset(r) == multiset(ms)
  {
    if |ms| == 0 then []
    else
      var rest := SortNewestFirst(ms[1..], dateKey);
      assert ms == [ms[0]] + ms[1..];
      InsertNewestFirst(ms[0], rest, dateKey);
      Insert(ms[0], rest, dateKey)
  }

  /** A prefix of a newest-first sequence is newest-first. */
  lemma PrefixNewestFirst(sorted: seq<Memory>, k: nat, dateKey: string -> int)
    requires k <= |sorted| && NewestFirst(sorted, dateKey)
    ensures NewestFirst(sorted[..k], dateKey)
  {
    var r := sorted[..k];
    forall i, j | 0 <= i < j < |r|
      ensures dateKey(r[i].date) >= dateKey(r[j].date)
    {
      assert r[i] == sorted[i] && r[j] == sorted[j];
    }
  }

  /** Cutting a newest-first sequence after `k` records: each kept record is
      at least as recent as every record left out. */
  lemma LeftOutNotNewer(sorted: seq<Memory>, k: nat, dateKey: string -> int)
    requires k <= |sorted| && NewestFirst(sorted, dateKey)
    ensures multiset(sorted[..k]) <= multiset(sorted)
    ensures forall i, m :: 0 <= i < k && m in multiset(sorted) - multiset(sorted[..k]) ==>
      dateKey(m.date) <= dateKey(sorted[i].date)
  {
    assert sorted == sorted[..k] + sorted[k..];
    assert multiset(sorted) - multiset(sorted[..k]) == multiset(sorted[k..]);
    forall i, m | 0 <= i < k && m in multiset(sorted[k..])
      ensures dateKey(m.date) <= dateKey(sorted[i].date)
    {
      assert m in sorted[k..];
      var j :| 0 <= j < |sorted[k..]| && sorted[k..][j] == m;
      assert sorted[k + j] == m;
    }
  }

  /** `recentMemories`: the first five of the sorted copy, that is, up to
      five records, newest first, none older than any record left out. */
  function RecentMemories(ms: seq<Memory>, dateKey: string -> int): (r: seq<Memory>)
    ensures |r| == if |ms| < 5 then |ms| else 5
    ensures NewestFirst(r, dateKey)
    ensures multiset(r) <= multiset(ms)
    ensures forall i, m :: 0 <= i < |r| && m in multiset(ms) - multiset(r) ==>
      dateKey(m.date) <= dateKey(r[i].date)
  {
    var sorted := SortNewestFirst(ms, dateKey);
    var k := if |ms| < 5 then |ms| else 5;
    PrefixNewestFirst(sorted, k, dateKey);
    LeftOutNotNewer(sorted, k, dateKey);
    sorted[..k]
  }

  /** The recent list is a prefix of a newest-first rearrangement of the
      whole collection. */
  lemma RecentIsPrefixOfSorted(ms: seq<Memory>, dateKey: string -> int)
    ensures exists p ::
      && multiset(p) == multiset(ms)
      && NewestFirst(p, dateKey)
      && |RecentMemories(ms, dateKey)| <= |p|
      && RecentMemories(ms, dateKey) == p[..|RecentMemories(ms, dateKey)|]
  {
    var p := SortNewestFirst(ms, dateKey);
    assert RecentMemories(ms, dateKey) == p[..|RecentMemories(ms, dateKey)|];
  }

  /** The tag badge on a recent-memory card: nothing for an untagged
      memory, otherwise the first tag and, when there are others, a "+n"
      count of them. */
  datatype TagBadge = NoBadge | Badge(first: string, others: Option<nat>)

  function RecentCardBadge(tags: seq<string>): (r: TagBadge)
    ensures r.NoBadge? <==> |tags| == 0
    ensures r.Badge? ==> r.first == tags[0] && 1 + r.others.GetOr(0) == |tags|
    ensures r.Badge? ==> (r.others.Some? <==> |tags| > 1)
  {
    if |tags| == 0 then NoBadge
    else Badge(tags[0], if |tags| > 1 then Some(|tags| - 1) else None)
  }

  // ---------------------------------------------------------------------
  // Search
  // ---------------------------------------------------------------------

  /** The sidebar's search: title, description or any tag. */
  predicate MatchesSearch(m: Memory, term: string)
  {
    ContainsIgnoringCase(m.title, term) || ContainsIgnoringCase(m.description, term) ||
    exists t :: t in m.tags && ContainsIgnoringCase(t, term)
  }

  /** `filteredMemories`: an order-preserving selection of the collection;
      a record is in it exactly when it matches the search. */
  function FilteredMemories(ms: seq<Memory>, term: string): (r: seq<Memory>)
    ensures IsSubseq(r, ms)
    ensures forall m :: m in r ==> m in ms && MatchesSearch(m, term)
    ensures forall m :: m in ms && MatchesSearch(m, term) ==> m in r
    ensures forall m :: m in ms ==> multiset(r)[m] == if MatchesSearch(m, term) then multiset(ms)[m] else 0
  {
    FilterMultiset((m: Memory) => MatchesSearch(m, term), ms);
    Filter((m: Memory) => MatchesSearch(m, term), ms)
  }

  // ---------------------------------------------------------------------
  // Panels and tag clicks
  // ---------------------------------------------------------------------

  datatype Tab = RecentTab | TagsTab

  datatype Panel = SearchResults | RecentList | TagList

  datatype SidebarState = SidebarState(searchTerm: string, activeTab: Tab)

  /** A non-empty search term shows the results; otherwise the active tab. */
  function ShownPanel(s: SidebarState): (r: Panel)
    ensures r == SearchResults <==> s.searchTerm != ""
    ensures r == RecentList <==> s.searchTerm == "" && s.activeTab == RecentTab
    ensures r == TagList <==> s.searchTerm == "" && s.activeTab == TagsTab
  {
    if s.searchTerm != "" then SearchResults
    else match s.activeTab
      case RecentTab => RecentList
      case TagsTab => TagList
  }

  /** Clicking a tag in the tag list puts the tag in the search box. */
  function ClickTag(s: SidebarState, tag: string): (r: SidebarState)
    ensures r.searchTerm == tag && r.activeTab == s.activeTab
  {
    s.(searchTerm := tag)
  }

  /** After clicking a non-empty tag the search results are shown, and every
      memory carrying that tag is among them. */
  lemma ClickTagFindsCarriers(s: SidebarState, ms: seq<Memory>, tag: string)
    requires tag != ""
    ensures ShownPanel(ClickTag(s, tag)) == SearchResults
    ensures forall m :: m in ms && tag in m.tags ==> m in FilteredMemories(ms, ClickTag(s, tag).searchTerm)
  {
    ContainsIgnoringCaseItself(tag);
  }
}

=== FILE: tag_catalog.dfy ===
/** The "all unique tags" fold that both the sidebar and the gallery
    compute: walk the memories and their tags in order, pushing each tag
    the accumulator does not yet include. */
module TagCatalog {
  import opened Types

  /** Every tag of every memory, memory by memory, in order. */
  function TagsOf(ms: seq<Memory>): seq<string>
  {
    if |ms| == 0 then [] else ms[0].tags + TagsOf(ms[1..])
  }

  /** One `if (!tags.includes(tag)) tags.push(tag)` step. */
  function PushIfNew(acc: seq<string>, tag: string): seq<string>
  {
    if tag in acc then acc else acc + [tag]
  }

  /** `memory.tags.forEach(...)` over one memory's tags. */
  function PushAll(acc: seq<string>, tags: seq<string>): seq<string>
    decreases |tags|
  {
    if |tags| == 0 then acc else PushAll(PushIfNew(acc, tags[0]), tags[1..])
  }

  /** `memories.reduce(..., acc)`. */
  function Collect(acc: seq<string>, ms: seq<Memory>): seq<string>
    decreases |ms|
  {
    if |ms| == 0 then acc else Collect(PushAll(acc, ms[0].tags), ms[1..])
  }

  predicate NoDuplicates(s: seq<string>)
  {
    forall i, j :: 0 <= i < j < |s| ==> s[i] != s[j]
  }

  /** Index of the first occurrence of `x` in `s`. */
  function FirstIndex(s: seq<string>, x: string): (k: nat)
    requires x in s
    ensures k < |s| && s[k] == x && x !in s[..k]
  {
    if s[0] == x then 0
    else
      var k := FirstIndex(s[1..], x);
      assert s[..k + 1] == [s[0]] + s[1..][..k];
      k + 1
  }

  /** `r` lists the distinct values of `flat`, each once, ordered by where
      each first appears in `flat`. */
  predicate FirstSeenOrder(r: seq<string>, flat: seq<string>)
  {
    && NoDuplicates(r)
    && (forall x :: x in r ==> x in flat)
    && (forall x :: x in flat ==> x in r)
    && (forall i, j :: 0 <= i < j < |r| ==> FirstIndex(flat, r[i]) < FirstIndex(flat, r[j]))
  }

  lemma {:induction false} FirstIndexAppend(s: seq<string>, y: string, x: string)
    requires x in s
    ensures FirstIndex(s + [y], x) == FirstIndex(s, x)
    decreases |s|
  {
    if s[0] != x {
      assert (s + [y])[1..] == s[1..] + [y];
      FirstIndexAppend(s[1..], y, x);
    }
  }

  /** One push step keeps first-seen order for the extended input. */
  lemma PushIfNewKeepsOrder(acc: seq<string>, flat: seq<string>, tag: string)
    requires FirstSeenOrder(acc, flat)
    ensures FirstSeenOrder(PushIfNew(acc, tag), flat + [tag])
  {
    var flat' := flat + [tag];
    var r := PushIfNew(acc, tag);
    forall x | x in flat
      ensures FirstIndex(flat', x) == FirstIndex(flat, x)
    {
      FirstIndexAppend(flat, tag, x);
    }
    if tag !in acc {
      assert tag !in flat;
      assert FirstIndex(flat', tag) == |flat|;
      forall i, j | 0 <= i < j < |r|
        ensures FirstIndex(flat', r[i]) < FirstIndex(flat', r[j])
      {
        assert r[i] in acc && r[i] in flat;
        if j < |acc| {
          assert r[j] in acc;
        }
      }
    }
  }

  /** Pushing a list with one more tag at the end is one more push step. */
  lemma {:induction false} PushAllSnoc(acc: seq<string>, tags: seq<string>, x: string)
    ensures PushAll(acc, tags + [x]) == PushIfNew(PushAll(acc, tags), x)
    decreases |tags|
  {
    if |tags| == 0 {
      assert tags + [x] == [x];
      assert [x][1..] == [];
    } else {
      assert (tags + [x])[1..] == tags[1..] + [x];
      PushAllSnoc(PushIfNew(acc, tags[0]), tags[1..], x);
    }
  }

  /** The nested fold over memories and their tags is one fold over the
      flattened tag list. */
  lemma {:induction false} CollectIsPushAll(acc: seq<string>, ms: seq<Memory>)
    ensures Collect(acc, ms) == PushAll(acc, TagsOf(ms))
    decreases |ms|
  {
    if |ms| > 0 {
      CollectIsPushAll(PushAll(acc, ms[0].tags), ms[1..]);
      PushAllConcat(acc, ms[0].tags, TagsOf(ms[1..]));
    }
  }

  lemma {:induction false} PushAllConcat(acc: seq<string>, a: seq<string>, b: seq<string>)
    ensures PushAll(acc, a + b) == PushAll(PushAll(acc, a), b)
    decreases |a|
  {
    if |a| == 0 {
      assert a + b == b;
    } else {
      assert (a + b)[1..] == a[1..] + b;
      PushAllConcat(PushIfNew(acc, a[0]), a[1..], b);
    }
  }

  /** The fold from the empty list lists the distinct tags in order of
      first appearance. */
  lemma {:induction false} DedupKeepsOrder(flat: seq<string>)
    ensures FirstSeenOrder(PushAll([], flat), flat)
    decreases |flat|
  {
    if |flat| > 0 {
      var init := flat[..|flat| - 1];
      var x := flat[|flat| - 1];
      assert flat == init + [x];
      DedupKeepsOrder(init);
      PushAllSnoc([], init, x);
      PushIfNewKeepsOrder(PushAll([], init), init, x);
    }
  }

  /** A tag is among all memories' tags exactly when some memory carries it. */
  lemma {:induction false} InTagsOf(ms: seq<Memory>, t: string)
    ensures t in TagsOf(ms) <==> exists m :: m in ms && t in m.tags
    decreases |ms|
  {
    if |ms| > 0 {
      InTagsOf(ms[1..], t);
      assert forall m :: m in ms <==> m == ms[0] || m in ms[1..];
    }
  }

  /** `allTags`, the fold started from the empty list: no duplicates,
      every tag of every memory and nothing else, listed in order of first
      appearance across the memories and their tags. */
  function AllTags(ms: seq<Memory>): (r: seq<string>)
    ensures FirstSeenOrder(r, TagsOf(ms))
    ensures forall t :: t in r ==> exists m :: m in ms && t in m.tags
    ensures forall m, t :: m in ms && t in m.tags ==> t in r
  {
    CollectIsPushAll([], ms);
    DedupKeepsOrder(TagsOf(ms));
    forall t
      ensures t in TagsOf(ms) <==> exists m :: m in ms && t in m.tags
    {
      InTagsOf(ms, t);
    }
    Collect([], ms)
  }
}

=== FILE: text.dfy ===
/** String primitives the components rely on, restricted to ASCII:
    `trim`, `split` with a one-character separator, `includes`,
    `toLowerCase`/`toUpperCase`, and decimal digit printing. */
module Text {

  // ---------------------------------------------------------------------
  // Whitespace and trim
  // ---------------------------------------------------------------------

  /** The ASCII characters `String.prototype.trim` removes. */
  predicate IsSpace(c: char)
  {
    c == ' ' || c == '\t' || c == '\n' || c == '\r' || c == '\U{000B}' || c == '\U{000C}'
  }

  predicate AllSpace(s: string)
  {
    forall i :: 0 <= i < |s| ==> IsSpace(s[i])
  }

  /** `r` sits in `s` at offset `lead` with only whitespace around it. */
  predicate Framed(s: string, r: string, lead: nat)
  {
    lead + |r| <= |s| && s[lead..lead + |r|] == r &&
    AllSpace(s[..lead]) && AllSpace(s[lead + |r|..])
  }

  /** Drops leading whitespace. */
  function TrimStart(s: string): (r: string)
    ensures |r| <= |s| && r == s[|s| - |r|..]
    ensures AllSpace(s[..|s| - |r|])
    ensures |r| == 0 || !IsSpace(r[0])
  {
    if |s| > 0 && IsSpace(s[0]) then
      var r := TrimStart(s[1..]);
      var n := |s| - |r|;
      assert s[1..][n - 1..] == s[n..];
      assert s[..n] == [s[0]] + s[1..][..n - 1];
      r
    else s
  }

  /** Drops trailing whitespace. */
  function TrimEnd(s: string): (r: string)
    ensures |r| <= |s| && r == s[..|r|]
    ensures AllSpace(s[|r|..])
    ensures |r| == 0 || !IsSpace(r[|r| - 1])
  {
    if |s| > 0 && IsSpace(s[|s| - 1]) then
      var r := TrimEnd(s[..|s| - 1]);
      assert s[|r|..] == s[..|s| - 1][|r|..] + [s[|s| - 1]];
      r
    else s
  }

  /** Whitespace dropped from the front and then from the back leaves the
      rest framed by whitespace in the original, with no whitespace at
      either end. */
  lemma FramedAfterTrims(s: string, t: string, r: string)
    requires |t| <= |s| && t == s[|s| - |t|..] && AllSpace(s[..|s| - |t|])
    requires |r| <= |t| && r == t[..|r|] && AllSpace(t[|r|..])
    requires |t| == 0 || !IsSpace(t[0])
    requires |r| == 0 || !IsSpace(r[|r| - 1])
    ensures Framed(s, r, |s| - |t|)
    ensures |r| == 0 || (!IsSpace(r[0]) && !IsSpace(r[|r| - 1]))
  {
    var lead := |s| - |t|;
    assert s[lead..lead + |r|] == t[..|r|];
    assert s[lead + |r|..] == t[|r|..];
  }

  /** `s.trim()`: the infix of `s` after its leading whitespace, with
      only whitespace after it and no whitespace at either end. */
  function Trim(s: string): (r: string)
    ensures |r| == 0 || (!IsSpace(r[0]) && !IsSpace(r[|r| - 1]))
    ensures Framed(s, r, |s| - |TrimStart(s)|)
  {
    var t := TrimStart(s);
    var r := TrimEnd(t);
    FramedAfterTrims(s, t, r);
    r
  }

  // ---------------------------------------------------------------------
  // Split and join on a one-character separator
  // ---------------------------------------------------------------------

  /** Position of the first occurrence of `c` in `s`. */
  function IndexOf(s: string, c: char): (k: nat)
    requires c in s
    ensures k < |s| && s[k] == c && c !in s[..k]
  {
    if s[0] == c then 0
    else
      var k := IndexOf(s[1..], c);
      assert s[..k + 1] == [s[0]] + s[1..][..k];
      k + 1
  }

  /** The first occurrence is where the character sits with none before. */
  lemma {:induction false} IndexOfAt(s: string, c: char, k: nat)
    requires k < |s| && s[k] == c && c !in s[..k]
    ensures IndexOf(s, c) == k
    decreases k
  {
    if k > 0 {
      assert s[0] == s[..k][0];
      assert s[1..][..k - 1] == s[..k][1..];
      IndexOfAt(s[1..], c, k - 1);
    }
  }

  /** Pieces glued back together with `sep` between consecutive ones. */
  function Join(pieces: seq<string>, sep: char): string
  {
    if |pieces| == 0 then ""
    else if |pieces| == 1 then pieces[0]
    else pieces[0] + [sep] + Join(pieces[1..], sep)
  }

  /** `s.split(sep)`: the maximal separator-free pieces, always at least one
      (so `"".split(",")` is `[""]`). */
  function Split(s: string, sep: char): (r: seq<string>)
    ensures |r| >= 1
    ensures forall i :: 0 <= i < |r| ==> sep !in r[i]
    ensures Join(r, sep) == s
    decreases |s|
  {
    if sep !in s then [s]
    else
      var k := IndexOf(s, sep);
      var rest := Split(s[k + 1..], sep);
      assert s == s[..k] + [sep] + s[k + 1..];
      [s[..k]] + rest
  }

  /** Splitting undoes joining separator-free pieces. */
  lemma {:induction false} SplitJoin(pieces: seq<string>, sep: char)
    requires |pieces| >= 1
    requires forall i :: 0 <= i < |pieces| ==> sep !in pieces[i]
    ensures Split(Join(pieces, sep), sep) == pieces
    decreases |pieces|
  {
    if |pieces| > 1 {
      var s := Join(pieces, sep);
      var p0 := pieces[0];
      var tail := Join(pieces[1..], sep);
      assert s == p0 + [sep] + tail;
      assert s[|p0|] == sep;
      assert s[..|p0|] == p0;
      assert sep in s;
      var k := IndexOf(s, sep);
      assert k == |p0|;
      assert s[k + 1..] == tail;
      SplitJoin(pieces[1..], sep);
    }
  }

  /** The first piece of a split: the prefix of `s` before the first `sep`. */
  lemma FirstPiece(s: string, sep: char)
    ensures var p := Split(s, sep)[0];
      |p| <= |s| && p == s[..|p|] && sep !in p && (|p| < |s| ==> s[|p|] == sep)
  {
  }

  // ---------------------------------------------------------------------
  // Substring search
  // ---------------------------------------------------------------------

  predicate StartsWith(s: string, prefix: string)
  {
    |prefix| <= |s| && s[..|prefix|] == prefix
  }

  /** `haystack.includes(needle)`. */
  predicate Contains(haystack: string, needle: string)
    decreases |haystack|
  {
    StartsWith(haystack, needle) || (|haystack| > 0 && Contains(haystack[1..], needle))
  }

  /** `Contains` holds exactly when the needle occurs at some offset. */
  lemma {:induction false} ContainsAtOffset(haystack: string, needle: string)
    ensures Contains(haystack, needle) <==>
      exists i :: 0 <= i <= |haystack| && StartsWith(haystack[i..], needle)
    decreases |haystack|
  {
    if Contains(haystack, needle) {
      if StartsWith(haystack, needle) {
        assert haystack[0..] == haystack;
      } else {
        ContainsAtOffset(haystack[1..], needle);
        var i :| 0 <= i <= |haystack[1..]| && StartsWith(haystack[1..][i..], needle);
        assert haystack[1..][i..] == haystack[i + 1..];
      }
    }
    if exists i :: 0 <= i <= |haystack| && StartsWith(haystack[i..], needle) {
      var i :| 0 <= i <= |haystack| && StartsWith(haystack[i..], needle);
      if i > 0 {
        assert haystack[1..][i - 1..] == haystack[i..];
        ContainsAtOffset(haystack[1..], needle);
      }
    }
  }

  // ---------------------------------------------------------------------
  // ASCII case mapping
  // ---------------------------------------------------------------------

  function LowerChar(c: char): char
  {
    if 'A' <= c <= 'Z' then (c as int + 32) as char else c
  }

  function UpperChar(c: char): char
  {
    if 'a' <= c <= 'z' then (c as int - 32) as char else c
  }

  /** `s.toLowerCase()` on ASCII letters. */
  function Lower(s: string): string
  {
    seq(|s|, i requires 0 <= i < |s| => LowerChar(s[i]))
  }

  /** `x.toLowerCase().includes(term.toLowerCase())`. */
  predicate ContainsIgnoringCase(x: string, term: string)
  {
    Contains(Lower(x), Lower(term))
  }

  lemma ContainsIgnoringCaseItself(x: string)
    ensures ContainsIgnoringCase(x, x)
  {
    assert Lower(x)[..|Lower(x)|] == Lower(x);
  }

  // ---------------------------------------------------------------------
  // Decimal digits
  // ---------------------------------------------------------------------

  predicate IsDigit(c: char)
  {
    '0' <= c <= '9'
  }

  predicate AllDigits(s: string)
  {
    forall i :: 0 <= i < |s| ==> IsDigit(s[i])
  }

  function DigitChar(d: nat): char
    requires d < 10
  {
    (48 + d) as char
  }

  function DigitValue(c: char): nat
    requires IsDigit(c)
  {
    c as int - 48
  }

  /** Canonical decimal form of `n`: no sign, no leading zeros. */
  function NatToString(n: nat): (r: string)
    ensures |r| >= 1 && AllDigits(r)
    ensures |r| > 1 ==> r[0] != '0'
    decreases n
  {
    if n < 10 then [DigitChar(n)] else NatToString(n / 10) + [DigitChar(n % 10)]
  }

  /** Reads a string of decimal digits as a natural number. */
  function ParseDigits(s: string): nat
    requires AllDigits(s)
  {
    if |s| == 0 then 0 else ParseDigits(s[..|s| - 1]) * 10 + DigitValue(s[|s| - 1])
  }

  /** Reading back a printed number gives the number. */
  lemma {:induction false} ParseNatToString(n: nat)
    ensures ParseDigits(NatToString(n)) == n
    decreases n
  {
    if n >= 10 {
      var s := NatToString(n);
      assert s[..|s| - 1] == NatToString(n / 10);
      ParseNatToString(n / 10);
    }
  }

  /** Exactly four digits, zero-padded: the fractional part of `toFixed(4)`. */
  function Frac4(f: nat): (r: string)
    requires f < 10000
    ensures |r| == 4 && AllDigits(r)
    ensures ParseDigits(r) == f
  {
    var r := [DigitChar(f / 1000), DigitChar(f / 100 % 10), DigitChar(f / 10 % 10), DigitChar(f % 10)];
    assert r[..3][..2][..1][..0] == [];
    assert r[..3][..2][..1] == [DigitChar(f / 1000)];
    assert ParseDigits(r[..3][..2][..1]) == f / 1000;
    assert ParseDigits(r[..3][..2]) == f / 100;
    assert ParseDigits(r[..3]) == f / 10;
    r
  }
}

=== FILE: types.dfy ===
/** The record behind the whole application, and the picked position.
    Coordinates are fixed-point: one unit is 1e-4 degree, so the four
    fractional digits printed by the formatter are exact. */
module Types {

  datatype Memory = Memory(
    id: string,
    title: string,
    description: string,
    latitude: int,
    longitude: int,
    date: string,
    imageUrl: string,
    tags: seq<string>)

  /** `{ latitude, longitude }` as handed from a terrain pick to the form. */
  datatype Position = Position(latitude: int, longitude: int)

  /** The identifiers of a collection, in collection order. */
  function Ids(ms: seq<Memory>): (r: seq<string>)
    ensures |r| == |ms|
    ensures forall i :: 0 <= i < |ms| ==> r[i] == ms[i].id
  {
    seq(|ms|, i requires 0 <= i < |ms| => ms[i].id)
  }
}

=== FILE: wrappers.dfy ===
/** The optional value used where the source has `T | null`. */
module Wrappers {

  datatype Option<+T> = None | Some(value: T) {

    /** Returns the value held in Some, or the default when None. */
    function GetOr(default: T): T
    {
      match this
      case Some(v) => v
      case None => default
    }
  }
}
